=== FILE: README.md ===
# Project Link Toolbox: the link-list core in Dafny

The Project Link Toolbox VS Code extension keeps a per-workspace-folder list
of named links (`{label, url}`). Two places change that list:

- the sidebar tree, through commands;
- a webview "manager" panel, through messages.

This project models the logic behind both. It covers how the list is loaded and
normalised from the extension's global state, how it is written back, which
storage key a folder uses, and the one-time copy of legacy data into a folder
key. It also covers every list-changing intent of the panel (add, edit, delete,
move, moveTo) and of the sidebar (add, edit, delete, move up / down / to top /
to bottom).

Modules, in dependency order:

- `Options` (`options.dfy`): the `Option` type.
- `JsString` (`js_string.dfy`): `String.prototype.trim` of ECMAScript. It
  strips the WhiteSpace and LineTerminator code points of section 12.2 and
  12.3 of ECMA-262.
- `Links` (`links.dfy`): the stored value as the extension sees it (not an
  array, or an array of entries that may or may not be `{label, url}` string
  records). Also the load (`getConfiguredLinks`) with its normalisation and
  default fallback, and the store (`updateConfiguredLinks`).
- `Reorder` (`reorder.dfy`): the splice-based `moveLink`, including the
  clamping `Array.prototype.splice` applies to its start argument.
- `StorageKeys` (`storage_keys.dfy`): `getFolderKey` and
  `ensureFolderLinksSeeded`, over both storage tiers.
- `Effects` (`effects.dfy`): what one intent does. That is at most one
  whole-list write, plus at most one notice: the list broadcast, a panel
  error or info line, or a host error pop-up.
- `ManagerIntents` (`manager_intents.dfy`): the panel's message handler. It
  is modelled one intent at a time and as a whole round, load then handle
  then store (`Receive`).
- `TreeCommands` (`tree_commands.dfy`): the sidebar commands. Also how they
  relate to the panel's intents, and the blank-label finding below.

Host services are parameters:

- URL parsing (`new URL`) is `isValidUrl: string -> bool`.
- `path.normalize`, `toLowerCase` and `process.platform` are the fields of
  `StorageKeys.Platform`.
- The answers of input boxes and of the modal delete prompt are inputs of
  the intent functions.
- The active folder key is passed explicitly instead of being read from a
  module-level variable.

An empty stored array loads as the default list, so adding `docs` to a
folder whose stored array is empty writes `[Example, docs]`.
`ManagerIntents.ScenarioFromEmpty` proves an add, move down, edit, delete
run from such an empty array.

## Model

| member | source | states |
|---|---|---|
| JsString.Trim | extension.js:46 | The result neither starts nor ends with whitespace and is no longer than the input; a string that is already trimmed comes back unchanged |
| JsString.TrimStart | extension.js:46 | The leading-whitespace half of `trim`: the result is a suffix of the input that is empty or starts with a non-whitespace character |
| JsString.TrimEnd | extension.js:46 | The trailing-whitespace half of `trim`: the result is a prefix of the input that is empty or ends with a non-whitespace character |
| JsString.TrimStartDropsWhitespace | extension.js:46 | Everything trimming cuts from the front is whitespace |
| JsString.TrimEndDropsWhitespace | extension.js:46 | Everything trimming cuts from the back is whitespace |
| JsString.TrimEmpty | extension.js:46-47 | Trimming gives the empty string exactly when the input is all whitespace, which is when the length filter drops the entry |
| JsString.TrimIdempotent | extension.js:46 | Trimming twice is trimming once, and the fixed points of trimming are exactly the trimmed strings |
| JsString.TrimPadding | extension.js:46 | Any whitespace around a trimmed non-empty core is exactly what trimming removes |
| Links.ResolveKey | extension.js:37 | The key used is never empty: an empty folder key resolves to the global key, and a non-empty one is used as it is |
| Links.Get | extension.js:38 | Definition: `globalState.get(key)`, where a key never written reads as `undefined` (falsy) |
| Links.CleanEntry | extension.js:45-47 | An entry survives exactly when it is a record whose label and url are strings that are non-empty after trimming; the survivor is the trimmed label/url pair, which is clean |
| Links.Normalize | extension.js:44-47 | Every link normalisation yields is clean (trimmed and non-empty), and there are never more links than entries |
| Links.NormalizeAppend | extension.js:44-47 | Normalisation distributes over concatenation, so surviving entries keep their stored relative order |
| Links.NormalizeMembers | extension.js:44-47 | A link is in the loaded list exactly when some stored entry normalises to it |
| Links.GetConfiguredLinks | extension.js:32-50 | The loaded list is never empty and always clean. Without a context, or when the stored value is not an array, it is the default list. A stored array loads as its normalised entries, in stored order, or as the default list when none survives |
| Links.LoadSplits | extension.js:44-49 | A stored array that is the concatenation of two parts loads as the survivors of the first part followed by the survivors of the second |
| Links.DefaultFallback | extension.js:40-49 | The load returns the default list exactly when the stored value is not an array, or nothing in it survives, or what survives equals the default list |
| Links.NothingSurvives | extension.js:44-49 | An array in which no entry survives normalisation, such as an empty array, loads as the default list |
| Links.UpdateConfiguredLinks | extension.js:52-60 | Nothing happens without a context. Otherwise the resolved key holds the written list and every other key is unchanged |
| Links.Encode | extension.js:59 | The stored form of a written list: one record per link, at the same position, with the link's label and URL as strings |
| Links.NormalizeEncode | extension.js:44-47 | A clean list that was written reads back as exactly that list |
| Links.UpdateThenGet | extension.js:32-60 | Writing a clean list and loading the same key gives the list back, or the default list if it was empty |
| Links.StoreThenLoad | extension.js:32-60 | For any list, writing it and loading the same key gives its normalised stored form, or the default list when nothing survives |
| Links.UpdateOtherKey | extension.js:52-60 | A write under one resolved key is invisible to a load under another |
| Links.WriteBackIsInvisible | extension.js:32-60 | Writing back the list just loaded changes nothing a later load sees |
| Reorder.SpliceStart | extension.js:436-438 | The start position `splice` uses is clamped into the list, and it is the given start whenever that start is in range |
| Reorder.Landing | extension.js:436-438 | Where the moved element lands: the target when it is inside the list, the last position when it is at or past the end |
| Reorder.MoveLink | extension.js:434-440 | Same length and same multiset of links. The moved link lands at the target, clamped to the last position, and removing it from both lists leaves the same list |
| Reorder.MoveLinkPointwise | extension.js:434-440 | Index by index: the links between source and target shift one step towards the source, and all others stay put |
| Reorder.MoveLinkPastEnd | extension.js:434-440 | A target at or past the end behaves like the last position |
| Reorder.MoveLinkReversible | extension.js:434-440 | Moving from f to t and then from t to f restores the list |
| Reorder.MoveLinkInPlace | extension.js:434-440 | Moving a link onto its own position changes nothing |
| Reorder.MoveLinkToFront | extension.js:434-440 | Moving to position 0 gives the link, then everything before it, then everything after it |
| Reorder.MoveLinkToBack | extension.js:434-440 | Moving to the last position gives everything but the link, then the link |
| Reorder.MoveLinkAdjacent | extension.js:434-440 | A move by one position, in either direction, swaps two neighbours |
| StorageKeys.GetFolderKey | extension.js:128-140 | The key is the global key exactly when there is no folder URI; otherwise the global key is a proper prefix of it, and a local folder's key continues with `:file:`. Which folders share a key is stated by `FileKeysInjective`, `NonFileKeysInjective` and `FileAndRemoteKeysDiffer` |
| StorageKeys.KeyPath | extension.js:133-136 | Definition: the normalised path, lower-cased on Windows; no contract of its own, `FileKeysInjective` states what it decides |
| StorageKeys.FileKeysInjective | extension.js:132-137 | Two local folders share a key exactly when their normalised (and, on Windows, lower-cased) paths agree |
| StorageKeys.NonFileKeyIsLegacyKey | extension.js:139 | For a folder that is not local, the folder key is the same string as the legacy key of line 174 |
| StorageKeys.NonFileKeysInjective | extension.js:139 | Two folders that are not local share a key exactly when their URIs have the same string form |
| StorageKeys.FileAndRemoteKeysDiffer | extension.js:133-139 | A local folder never shares a key with a folder that is not local, whose URI string starts with its scheme and `:` |
| StorageKeys.LegacyUriKey | extension.js:174 | There is a legacy key exactly when the folder has a URI; it is the global key and `:` followed by the URI's string form |
| StorageKeys.LegacyKeysInjective | extension.js:174 | Two folders with URIs share a legacy key exactly when their URIs have the same string form |
| StorageKeys.GetIfKey | extension.js:174-178 | `legacyUriKey && get(legacyUriKey)`: falsy without a legacy key, otherwise the stored value under it |
| StorageKeys.Or | extension.js:175-179 | JavaScript `a \|\| b`: the first operand if it is truthy, otherwise the second |
| StorageKeys.FirstTruthy | extension.js:175-179 | Reference definition: the result is a truthy candidate with no truthy candidate before it; none exactly when every candidate is falsy |
| StorageKeys.SeedSource | extension.js:175-179 | The `\|\|` chain exactly as written: its value is always one of the four candidates, and it is falsy only as the last lookup |
| StorageKeys.SeedSourceIsFirstTruthy | extension.js:174-179 | The left-nested `\|\|` chain picks the first truthy of the four candidates in their fixed order, or else the last lookup |
| StorageKeys.EnsureFolderLinksSeeded | extension.js:161-183 | Only the folder key of the global state can change. Nothing changes without a context, for the global or empty key, or when the key already holds an array. Otherwise the key gets the first truthy candidate if that is an array |
| StorageKeys.SeedingApplies | extension.js:164-171 | Definition: the guards that let seeding go on: a non-empty folder key other than the global key, whose global slot holds no array yet |
| StorageKeys.SeedingIdempotent | extension.js:161-183 | A second seeding run after the first changes nothing |
| StorageKeys.SeedPrefersGlobalLegacy | extension.js:174-181 | An array under the legacy key in the global state is what gets copied, whatever the other tiers hold |
| StorageKeys.SeededLinksLoad | extension.js:180-181 | After seeding copied an array, the folder key loads as that array's normalised links, or as the default list |
| StorageKeys.NonFileStaleValueBlocksSeeding | extension.js:169-179 | For a non-local folder, a truthy non-array value already under its key wins the chain, so nothing is copied |
| Effects.IndexOr | extension.js:241 | `typeof index === 'number' ? index : -1`: a carried index comes back as it is, negative ones included, and a missing index reads as -1 |
| ManagerIntents.ValidateLink | extension.js:223-232 | The pair passes exactly when the trimmed label and URL are non-empty and the URL parses. An empty field gives the "required" error, an unparsable URL the "invalid" error |
| ManagerIntents.AddIntent | extension.js:222-238 | A write happens exactly when validation passes. It is the old list with the trimmed pair appended. Otherwise only the validation error is shown |
| ManagerIntents.EditIntent | extension.js:240-261 | A bad index does nothing. Otherwise the validation error is shown, or the write changes only that position, to the trimmed pair |
| ManagerIntents.WithoutIndex | extension.js:278 | Filtering out one index removes exactly that position, and an index outside the list removes nothing |
| ManagerIntents.DeleteIntent | extension.js:263-282 | A bad index does nothing and a declined prompt only shows "Delete canceled."; a confirmed delete writes the list without that position |
| ManagerIntents.MoveIntent | extension.js:284-306 | A write happens exactly when the index and its target are both in the list and differ. The write is a permutation with the moved link at the target and the others in their old order |
| ManagerIntents.MoveTarget | extension.js:289-298 | Definition: the target a direction names, the own index for an unknown direction; `MoveUp`, `MoveDown`, `MoveTop`, `MoveBottom` and `MoveUnknownDirection` state each case through `MoveIntent` |
| ManagerIntents.MoveToIntent | extension.js:308-321 | A write happens exactly when the source is in the list, the target is in `0..length` and they differ. The link lands at the target, or last when the target equals the length |
| ManagerIntents.HandleMessage | extension.js:215-322 | `ready` answers with the current list, an unknown message does nothing, and every write is broadcast as it was written |
| ManagerIntents.Dispatch | extension.js:215-322 | Each of the add, edit, delete, move and moveTo messages is handled by its own intent function |
| ManagerIntents.HandleMessageKeepsClean | extension.js:220-321 | Started from a clean list, no intent ever writes a link that a later load would drop |
| ManagerIntents.Receive | extension.js:215-322 | The effect of a round is the handler's effect on the list loaded from the active key, whatever is stored there. One handled message leaves the store alone unless it writes. A write puts the list under the active key, reads back as written (or as the default list when empty), and touches no other key |
| ManagerIntents.MoveUp | extension.js:289-302 | `up` swaps a link with the one before it, and does nothing on the first link |
| ManagerIntents.MoveDown | extension.js:289-302 | `down` swaps a link with the one after it, and does nothing on the last link |
| ManagerIntents.MoveTop | extension.js:289-302 | `top` puts a link first with the others in order, and does nothing on the first link |
| ManagerIntents.MoveBottom | extension.js:289-302 | `bottom` puts a link last with the others in order, and does nothing on the last link |
| ManagerIntents.MoveUnknownDirection | extension.js:289-301 | Any other direction does nothing |
| ManagerIntents.MoveToReversible | extension.js:308-321 | Dragging a link back to where it came from restores the list |
| ManagerIntents.MoveToPastEnd | extension.js:311-317 | Dropping at the length is dropping on the last row; doing so with the last row writes the list back unchanged |
| ManagerIntents.ReceiveSeesStoredList | extension.js:220 | When the key holds a non-empty clean list, the handler acts on exactly that list |
| ManagerIntents.ReceiveSeesDefault | extension.js:220 | When the key holds an empty array, the handler acts on the default list |
| ManagerIntents.DeleteLastLinkFallsBack | extension.js:263-282 | Deleting the only link stores an empty array, which then loads as the default list |
| ManagerIntents.ScenarioFromEmpty | extension.js:220-306 | From an empty stored array, add, move down, edit and delete (each at index 0) write `[Example, docs]`, `[docs, Example]`, `[docs2, Example]` and `[Example]` |
| TreeCommands.Answered | extension.js:350-362 | Definition: the raw `!label` / `!url` test, passed by any non-empty answer, including one of only white space |
| TreeCommands.AddLinkCommand | extension.js:345-372 | As written: a write happens exactly when both answers are non-empty as typed. It appends the trimmed pair to the old list and broadcasts it; otherwise nothing happens |
| TreeCommands.AddLinkCommandTrimmed | extension.js:345-372 | Corrected: a write happens exactly when both trimmed answers are non-empty, and the appended link is clean; every write is broadcast to the manager view |
| TreeCommands.EditLinkCommand | extension.js:374-412 | As written: an index outside the list gives the "not found" error. A write happens exactly when both answers are non-empty as typed, and it changes only that position; every write is broadcast to the manager view |
| TreeCommands.EditLinkCommandTrimmed | extension.js:374-412 | Corrected: a write happens exactly when the index is valid and both trimmed answers are non-empty, and the new link is clean; a refused answer on a valid index does nothing at all; every write is broadcast to the manager view |
| TreeCommands.DeleteLinkCommand | extension.js:414-432 | An index outside the list gives the error pop-up, and a declined prompt does nothing. A confirmed delete writes the list without that position, and that list is broadcast to the manager view |
| TreeCommands.MoveLinkUp | extension.js:442-453 | Nothing happens for the first link or a bad index; otherwise the link swaps with the one before it |
| TreeCommands.MoveLinkDown | extension.js:455-466 | Nothing happens for the last link or a bad index; otherwise the link swaps with the one after it |
| TreeCommands.MoveLinkToTop | extension.js:467-478 | Nothing happens for the first link or a bad index; otherwise the link goes first with the others in order |
| TreeCommands.MoveLinkToBottom | extension.js:479-490 | Nothing happens for the last link or a bad index; otherwise the link goes last with the others in order |
| TreeCommands.TreeMoveUpMatchesManager | extension.js:442-453 | For every list and index, the sidebar's move up is the panel's `up` move |
| TreeCommands.TreeMoveDownMatchesManager | extension.js:455-466 | For every list and index, the sidebar's move down is the panel's `down` move |
| TreeCommands.TreeMoveToTopMatchesManager | extension.js:467-478 | For every list and index, the sidebar's move to top is the panel's `top` move |
| TreeCommands.TreeMoveToBottomMatchesManager | extension.js:479-490 | For every list and index, the sidebar's move to bottom is the panel's `bottom` move |
| TreeCommands.TreeDeleteMatchesManager | extension.js:414-432 | The sidebar and panel deletes write the same list; they differ only in what the user is told |
| TreeCommands.TrimmedAddMatchesManager | extension.js:345-372 | For a URL that parses, the corrected sidebar add writes what the panel's add writes |
| TreeCommands.TreeCommandsKeepClean | extension.js:345-432 | Starting from a clean list, corrected add, corrected edit and delete never write a link that a later load would drop |
| TreeCommands.BlankLabelAddIsLost | extension.js:350-367 | As written, a label of only whitespace is accepted and stored as an empty label. The next load drops that link and returns the old list |
| TreeCommands.BlankLabelAddRefused | extension.js:350-367 | The corrected add refuses a label of only whitespace |
| TreeCommands.BlankLabelEditIsLost | extension.js:390-407 | As written, editing a label to only whitespace stores an empty label. The next load drops the edited link |
| TreeCommands.BlankLabelEditRefused | extension.js:390-407 | The corrected edit refuses a label of only whitespace |

## Left out

- `getWebviewHtml` (extension.js:15-30) is file reading and template substitution.
- The panel's page script (`webview/managerView.js`) only renders the list and posts messages. The messages it can send are the `ManagerIntents.Message` values.
- Host calls are not modelled: input boxes, the warning prompt, `postMessage`, tree refresh, `openExternal`, panel creation and event subscriptions. Their answers are parameters, and their outputs are the `Effects.Notice` values.
- `openLink` does not touch the list. `openManager` (extension.js:200-211) affects stored lists only through its call to `ensureFolderLinksSeeded` (line 211), which `StorageKeys.EnsureFolderLinksSeeded` models; the panel it opens is not modelled.
- `syncActiveFolderKey`, `getActiveFolder` and `render` depend on which editor has focus. The active key is a parameter instead.
- Whether a panel is open when a list is broadcast is not modelled. A `LinksNotice` says what would be sent.
- `await` ordering, and two intents racing each other, are not modelled. Each intent is one atomic load, decide, store round.
- URL parsing is the parameter `isValidUrl`. The sidebar's URL input box runs the same check through `validateInput` before it can be accepted. That is why the sidebar commands do not re-check the URL.
- `path.normalize` and `toLowerCase` are the functions carried by `StorageKeys.Platform`, whatever they compute.
- ManagerIntents.Message: fields hold `String(message.field || '')` already computed. How `String` renders a non-string value is not modelled.
- Effects.IndexOr: an index that is a number but not an integer (such as `1.5`) is not modelled. Indices are `Option<int>`, with a non-number as `None`.
- JsString.Trim works on Unicode scalar values, not UTF-16 code units. Every code point `trim` removes is a single code unit, so only strings with unpaired surrogates could differ.

## Findings

| source | as written | input that shows it | evidently intended | confidence | as-written member | corrected member |
|---|---|---|---|---|---|---|
| extension.js:350-367 | The add command rejects only an empty label as typed (`!label`), then stores `label.trim()` | A label answer of one space with a URL the box accepts. The stored link has an empty label, the next load drops it, and the command appears to do nothing | Refuse a label that is empty after trimming, as the panel does at lines 223-228 | medium, not executed | TreeCommands.AddLinkCommand, TreeCommands.BlankLabelAddIsLost | TreeCommands.AddLinkCommandTrimmed, TreeCommands.BlankLabelAddRefused |
| extension.js:390-407 | The edit command rejects only an empty label as typed (`!newLabel`), then stores `newLabel.trim()` | Editing any link's label to one space. The stored link has an empty label, and the next load drops the edited link from the list | Refuse a label that is empty after trimming, as the panel does at lines 245-250 | medium, not executed | TreeCommands.EditLinkCommand, TreeCommands.BlankLabelEditIsLost | TreeCommands.EditLinkCommandTrimmed, TreeCommands.BlankLabelEditRefused |

=== FILE: effects.dfy ===
/**
 What handling one user intent does: at most one whole-list write to the
 active key, and at most one notice to the user.
 */
module Effects {
  import opened Options
  import opened Links

  /** A notice: the manager view is sent the full list (`links`), an inline
      `error` or an `info` status; the host may also pop up an error message. */
  datatype Notice =
    | LinksNotice(links: seq<Link>)
    | PanelError(message: string)
    | PanelInfo(message: string)
    | HostError(message: string)

  /** The outcome of one intent: the list to persist, if any, and the notice
      shown, if any. */
  datatype Effect = Effect(write: Option<seq<Link>>, notice: Option<Notice>)

  /** Nothing is written and nothing is shown. */
  const NoOp: Effect := Effect(None, None)

  /** Only a notice, no write. */
  function Say(n: Notice): Effect {
    Effect(None, Some(n))
  }

  /** The list is persisted and broadcast to the manager view. */
  function Commit(next: seq<Link>): Effect {
    Effect(Some(next), Some(LinksNotice(next)))
  }

  /** `typeof v === 'number' ? v : -1` for a message or tree-item index. */
  function IndexOr(v: Option<int>): (r: int)
    ensures v.None? ==> r == -1
    ensures v.Some? ==> r == v.value
    ensures r >= 0 ==> v == Some(r)
  {
    v.GetOr(-1)
  }

  /** Whether an index picks an element of a list of length `n`. */
  predicate InRange(i: int, n: int) {
    0 <= i < n
  }
}

=== FILE: js_string.dfy ===
/**
 String.prototype.trim of ECMAScript: removes the leading and trailing
 WhiteSpace and LineTerminator code points of a string.

 Every such code point lies in the Basic Multilingual Plane, so working on
 Unicode scalar values (Dafny `char`) instead of UTF-16 code units changes
 nothing about which characters are stripped.
 */
module JsString {

  /** The WhiteSpace (TAB, VT, FF, ZWNBSP, and every space separator of
      category Zs) and LineTerminator (LF, CR, LS, PS) code points. */
  predicate IsWhitespace(c: char) {
    || c == '\t' || c == '\U{000B}' || c == '\U{000C}' || c == '\U{FEFF}'
    || c == ' ' || c == '\U{00A0}' || c == '\U{1680}'
    || ('\U{2000}' <= c <= '\U{200A}')
    || c == '\U{202F}' || c == '\U{205F}' || c == '\U{3000}'
    || c == '\n' || c == '\r' || c == '\U{2028}' || c == '\U{2029}'
  }

  predicate AllWhitespace(s: string) {
    forall i :: 0 <= i < |s| ==> IsWhitespace(s[i])
  }

  /** Neither starts nor ends with whitespace: what `trim` leaves behind. */
  predicate Trimmed(s: string) {
    |s| == 0 || (!IsWhitespace(s[0]) && !IsWhitespace(s[|s| - 1]))
  }

  /** Drops leading whitespace: a suffix of `s` that is empty or starts with
      a non-whitespace character (`TrimStartDropsWhitespace` says what was cut). */
  function TrimStart(s: string): (r: string)
    ensures |r| <= |s| && r == s[|s| - |r|..]
    ensures |r| > 0 ==> !IsWhitespace(r[0])
  {
    if |s| > 0 && IsWhitespace(s[0]) then TrimStart(s[1..]) else s
  }

  /** Drops trailing whitespace: a prefix of `s` that is empty or ends with
      a non-whitespace character (`TrimEndDropsWhitespace` says what was cut). */
  function TrimEnd(s: string): (r: string)
    ensures |r| <= |s| && r == s[..|r|]
    ensures |r| > 0 ==> !IsWhitespace(r[|r| - 1])
  {
    if |s| > 0 && IsWhitespace(s[|s| - 1]) then TrimEnd(s[..|s| - 1]) else s
  }

  /** String.prototype.trim. */
  function Trim(s: string): (r: string)
    ensures Trimmed(r)
    ensures |r| <= |s|
    ensures Trimmed(s) ==> r == s
  {
    var t := TrimStart(s);
    var r := TrimEnd(t);
    assert r != [] ==> r[0] == t[0];
    assert Trimmed(s) && s != [] ==> t == s;
    r
  }

  /** Only whitespace is cut from the front, and the cut is maximal. */
  lemma {:induction false} TrimStartDropsWhitespace(s: string)
    ensures AllWhitespace(s[..|s| - |TrimStart(s)|])
  {
    if |s| > 0 && IsWhitespace(s[0]) {
      TrimStartDropsWhitespace(s[1..]);
      var k := |s| - |TrimStart(s)|;
      forall i | 0 <= i < k
        ensures IsWhitespace(s[..k][i])
      {
        if i > 0 {
          assert s[..k][i] == s[1..][..k - 1][i - 1];
        }
      }
    }
  }

  /** Only whitespace is cut from the back, and the cut is maximal. */
  lemma {:induction false} TrimEndDropsWhitespace(s: string)
    ensures AllWhitespace(s[|TrimEnd(s)|..])
  {
    if |s| > 0 && IsWhitespace(s[|s| - 1]) {
      TrimEndDropsWhitespace(s[..|s| - 1]);
      var k := |TrimEnd(s)|;
      forall i | 0 <= i < |s| - k
        ensures IsWhitespace(s[k..][i])
      {
        if i < |s| - k - 1 {
          assert s[k..][i] == s[..|s| - 1][k..][i];
        }
      }
    }
  }

  /** `trim` yields the empty string exactly for all-whitespace input. */
  lemma TrimEmpty(s: string)
    ensures Trim(s) == [] <==> AllWhitespace(s)
  {
    var t := TrimStart(s);
    TrimStartDropsWhitespace(s);
    TrimEndDropsWhitespace(t);
    if Trim(s) == [] {
      assert t[0..] == t;
      assert t == [];
      assert s[..|s|] == s;
    }
  }

  /** Trimming is idempotent, and it leaves exactly the trimmed strings fixed. */
  lemma TrimIdempotent(s: string)
    ensures Trim(Trim(s)) == Trim(s)
    ensures Trim(s) == s <==> Trimmed(s)
  {
  }

  /** Whitespace around a trimmed core is all that `trim` removes. */
  lemma {:induction false} TrimPadding(pre: string, core: string, post: string)
    requires AllWhitespace(pre) && AllWhitespace(post)
    requires Trimmed(core) && core != []
    ensures Trim(pre + core + post) == core
  {
    var s := pre + core + post;
    assert pre + (core + post) == s;
    assert TrimStart(s) == core + post by {
      TrimStartPadding(pre, core + post);
    }
    assert TrimEnd(core + post) == core by {
      TrimEndPadding(core, post);
    }
    TrimUnfold(s);
  }

  lemma TrimUnfold(s: string)
    ensures Trim(s) == TrimEnd(TrimStart(s))
  {
  }

  lemma {:induction false} TrimStartPadding(pre: string, rest: string)
    requires AllWhitespace(pre)
    requires rest != [] && !IsWhitespace(rest[0])
    ensures TrimStart(pre + rest) == rest
  {
    if pre != [] {
      assert (pre + rest)[1..] == pre[1..] + rest;
      TrimStartPadding(pre[1..], rest);
    }
  }

  lemma {:induction false} TrimEndPadding(rest: string, post: string)
    requires AllWhitespace(post)
    requires rest != [] && !IsWhitespace(rest[|rest| - 1])
    ensures TrimEnd(rest + post) == rest
  {
    if post != [] {
      assert (rest + post)[..|rest + post| - 1] == rest + post[..|post| - 1];
      TrimEndPadding(rest, post[..|post| - 1]);
    }
  }
}

=== FILE: links.dfy ===
/**
 The link store: the records the extension keeps under a storage key, how a
 raw stored value is read back as a clean list of links, and the whole-list
 write that replaces it.

 The host's key/value storage holds arbitrary JSON-like values, so a stored
 value is modelled by the three shapes the reading code tells apart.
 */
module Links {
  import opened Options
  import opened JsString

  /** One label/URL pair, as the extension writes it (`name` holds the label). */
  datatype Link = Link(name: string, url: string)

  /** A property of a stored record: a string, or anything else
      (missing, a number, an object, ...). */
  datatype Field = Str(s: string) | NonString

  /** One entry of a stored array: an object with its `label` and `url`
      properties, or a value that is not an object at all (null, 0, "", ...). */
  datatype RawEntry = Record(name: Field, url: Field) | NonRecord

  /** A stored value as the extension distinguishes it. `Falsy` stands for
      every JavaScript falsy value, including a key that was never written
      (`undefined`); `NonArray` for every truthy value that is not an array;
      an array is always truthy, even when empty. */
  datatype Raw = Falsy | NonArray | Array(entries: seq<RawEntry>)

  type Store = map<string, Raw>

  /** The storage key used when no folder key is in effect. */
  const GlobalKey: string := "projectLinkToolbox.links"

  /** The list shown whenever nothing usable is stored. */
  const DefaultLinks: seq<Link> := [Link("Example", "https://example.com")]

  /** `Memento.get`: a key never written reads as `undefined`. */
  function Get(st: Store, key: string): Raw {
    if key in st then st[key] else Falsy
  }

  predicate Truthy(v: Raw) {
    !v.Falsy?
  }

  /** `folderKey || LINKS_SETTING_KEY`: a missing or empty key is the global one. */
  function ResolveKey(folderKey: string): (k: string)
    ensures k != []
    ensures folderKey != [] ==> k == folderKey
    ensures folderKey == [] ==> k == GlobalKey
  {
    if folderKey == [] then GlobalKey else folderKey
  }

  /** A link that survives normalisation: both fields trimmed and non-empty. */
  predicate Clean(l: Link) {
    Trimmed(l.name) && Trimmed(l.url) && l.name != [] && l.url != []
  }

  predicate AllClean(ls: seq<Link>) {
    forall l :: l in ls ==> Clean(l)
  }

  /** What normalisation makes of a single stored entry: it is kept only when
      it is an object whose `label` and `url` are strings that are still
      non-empty once trimmed. */
  function CleanEntry(e: RawEntry): (r: Option<Link>)
    ensures r.Some? ==> Clean(r.value)
    ensures r.Some? <==> e.Record? && e.name.Str? && e.url.Str?
                         && Trim(e.name.s) != [] && Trim(e.url.s) != []
    ensures r.Some? ==> r.value == Link(Trim(e.name.s), Trim(e.url.s))
  {
    if e.Record? && e.name.Str? && e.url.Str? then
      var l := Link(Trim(e.name.s), Trim(e.url.s));
      if |l.name| > 0 && |l.url| > 0 then Some(l) else None
    else
      None
  }

  /** The filter / trim / filter pipeline over a stored array, one entry at a
      time: the entries that survive, trimmed, in their stored order. */
  function Normalize(es: seq<RawEntry>): (r: seq<Link>)
    ensures AllClean(r)
    ensures |r| <= |es|
  {
    if es == [] then []
    else
      match CleanEntry(es[0])
      case Some(l) => [l] + Normalize(es[1..])
      case None => Normalize(es[1..])
  }

  /** `getConfiguredLinks`: the clean list stored under the key, or the
      default list when there is no context yet, the stored value is not an
      array, or nothing in it survives normalisation. */
  function GetConfiguredLinks(ctx: Option<Store>, folderKey: string): (r: seq<Link>)
    ensures r != [] && AllClean(r)
    ensures ctx.None? ==> r == DefaultLinks
    ensures ctx.Some? && !Get(ctx.value, ResolveKey(folderKey)).Array? ==> r == DefaultLinks
    ensures ctx.Some? && Get(ctx.value, ResolveKey(folderKey)).Array? ==>
              var n := Normalize(Get(ctx.value, ResolveKey(folderKey)).entries);
              r == if n == [] then DefaultLinks else n
  {
    match ctx
    case None => DefaultLinks
    case Some(st) =>
      match Get(st, ResolveKey(folderKey))
      case Array(es) =>
        var n := Normalize(es);
        if |n| > 0 then n else DefaultLinks
      case _ => DefaultLinks
  }

  /** How the host stores a list the extension wrote. */
  function Encode(ls: seq<Link>): (es: seq<RawEntry>)
    ensures |es| == |ls|
    ensures forall i :: 0 <= i < |ls| ==> es[i] == Record(Str(ls[i].name), Str(ls[i].url))
  {
    if ls == [] then [] else [Record(Str(ls[0].name), Str(ls[0].url))] + Encode(ls[1..])
  }

  /** `updateConfiguredLinks`: the list replaces whatever the resolved key
      held, as one whole-list write; no other key changes, and nothing
      happens before the extension has a context. */
  function UpdateConfiguredLinks(ctx: Option<Store>, next: seq<Link>, folderKey: string): (r: Option<Store>)
    ensures r.Some? <==> ctx.Some?
    ensures r.Some? ==> Get(r.value, ResolveKey(folderKey)) == Array(Encode(next))
    ensures r.Some? ==> forall k :: k != ResolveKey(folderKey) ==> Get(r.value, k) == Get(ctx.value, k)
  {
    match ctx
    case None => None
    case Some(st) => Some(st[ResolveKey(folderKey) := Array(Encode(next))])
  }

  // ---------------------------------------------------------------------
  // Properties of normalisation and of the load/store pair

  /** Normalisation works entry by entry: it distributes over concatenation,
      so the surviving entries keep their stored relative order. */
  lemma {:induction false} NormalizeAppend(a: seq<RawEntry>, b: seq<RawEntry>)
    ensures Normalize(a + b) == Normalize(a) + Normalize(b)
  {
    if a == [] {
      assert a + b == b;
    } else {
      assert (a + b)[0] == a[0];
      assert (a + b)[1..] == a[1..] + b;
      NormalizeAppend(a[1..], b);
    }
  }

  /** A stored array read back in two parts: what survives of the first
      part comes first, in its stored order, followed by what survives of
      the second. */
  lemma LoadSplits(st: Store, folderKey: string, a: seq<RawEntry>, b: seq<RawEntry>)
    requires Get(st, ResolveKey(folderKey)) == Array(a + b)
    requires Normalize(a) != [] || Normalize(b) != []
    ensures GetConfiguredLinks(Some(st), folderKey) == Normalize(a) + Normalize(b)
  {
    NormalizeAppend(a, b);
  }

  /** Every link the load returns comes from some stored entry, and every
      entry that normalises to a link contributes it. */
  lemma {:induction false} NormalizeMembers(es: seq<RawEntry>, l: Link)
    ensures l in Normalize(es) <==> exists j :: 0 <= j < |es| && CleanEntry(es[j]) == Some(l)
  {
    if es != [] {
      NormalizeMembers(es[1..], l);
      NormalizeStep(es, l);
      SomeEntryShift(es, l);
    }
  }

  /** One step of normalisation, seen from a single link. */
  lemma NormalizeStep(es: seq<RawEntry>, l: Link)
    requires es != []
    ensures l in Normalize(es) <==> CleanEntry(es[0]) == Some(l) || l in Normalize(es[1..])
  {
  }

  /** An entry of `es` yields `l` exactly when the first one does or one of
      the rest does. */
  lemma SomeEntryShift(es: seq<RawEntry>, l: Link)
    requires es != []
    ensures (exists j :: 0 <= j < |es| && CleanEntry(es[j]) == Some(l))
            <==> CleanEntry(es[0]) == Some(l)
                 || exists j :: 0 <= j < |es[1..]| && CleanEntry(es[1..][j]) == Some(l)
  {
    if exists j :: 0 <= j < |es[1..]| && CleanEntry(es[1..][j]) == Some(l) {
      var j :| 0 <= j < |es[1..]| && CleanEntry(es[1..][j]) == Some(l);
      assert CleanEntry(es[j + 1]) == Some(l);
    }
    if exists j :: 0 <= j < |es| && CleanEntry(es[j]) == Some(l) {
      var j :| 0 <= j < |es| && CleanEntry(es[j]) == Some(l);
      if j > 0 {
        assert CleanEntry(es[1..][j - 1]) == Some(l);
      }
    }
  }

  /** A list of clean links reads back exactly as it was written. */
  lemma {:induction false} NormalizeEncode(ls: seq<Link>)
    requires AllClean(ls)
    ensures Normalize(Encode(ls)) == ls
  {
    if ls != [] {
      var es := Encode(ls);
      HeadEncodes(ls);
      assert es[1..] == Encode(ls[1..]);
      assert AllClean(ls[1..]) by { TailClean(ls); }
      NormalizeEncode(ls[1..]);
    }
  }

  lemma HeadEncodes(ls: seq<Link>)
    requires ls != [] && AllClean(ls)
    ensures CleanEntry(Encode(ls)[0]) == Some(ls[0])
  {
    assert Clean(ls[0]);
  }

  lemma TailClean(ls: seq<Link>)
    requires ls != [] && AllClean(ls)
    ensures AllClean(ls[1..])
  {
    assert forall l :: l in ls[1..] ==> l in ls;
  }

  /** Store then load: a non-empty clean list comes back unchanged, an empty
      one comes back as the default list. */
  lemma UpdateThenGet(st: Store, next: seq<Link>, folderKey: string)
    requires AllClean(next)
    ensures GetConfiguredLinks(UpdateConfiguredLinks(Some(st), next, folderKey), folderKey)
            == if next == [] then DefaultLinks else next
  {
    NormalizeEncode(next);
  }

  /** The default list is itself clean. */
  lemma DefaultLinksClean()
    ensures AllClean(DefaultLinks)
  {
    var d := DefaultLinks[0];
    assert Trimmed(d.name) && Trimmed(d.url);
  }

  /** Appending, replacing and removing single links keep a list clean. */
  lemma AppendKeepsClean(ls: seq<Link>, l: Link)
    requires AllClean(ls) && Clean(l)
    ensures AllClean(ls + [l])
  {
    forall x | x in ls + [l]
      ensures Clean(x)
    {
      if x != l {
        assert x in ls;
      }
    }
  }

  lemma ReplaceKeepsClean(ls: seq<Link>, i: int, l: Link)
    requires AllClean(ls) && 0 <= i < |ls| && Clean(l)
    ensures AllClean(ls[i := l])
  {
    forall x | x in ls[i := l]
      ensures Clean(x)
    {
      var j :| 0 <= j < |ls| && ls[i := l][j] == x;
      if j != i {
        assert ls[j] in ls;
      }
    }
  }

  lemma RemoveKeepsClean(ls: seq<Link>, i: int)
    requires AllClean(ls) && 0 <= i < |ls|
    ensures AllClean(ls[..i] + ls[i + 1..])
  {
    assert forall x :: x in ls[..i] ==> x in ls;
    assert forall x :: x in ls[i + 1..] ==> x in ls;
  }

  /** Store then load, for any list: what comes back is the normalised
      stored encoding, or the default list when nothing survives. */
  lemma StoreThenLoad(st: Store, next: seq<Link>, folderKey: string)
    ensures var n := Normalize(Encode(next));
            GetConfiguredLinks(UpdateConfiguredLinks(Some(st), next, folderKey), folderKey)
            == if n == [] then DefaultLinks else n
  {
  }

  /** A write under one key is invisible to a load under another. */
  lemma UpdateOtherKey(st: Store, next: seq<Link>, k1: string, k2: string)
    requires ResolveKey(k1) != ResolveKey(k2)
    ensures GetConfiguredLinks(UpdateConfiguredLinks(Some(st), next, k1), k2)
            == GetConfiguredLinks(Some(st), k2)
  {
  }

  /** Writing back what was just read changes nothing a later read can see. */
  lemma WriteBackIsInvisible(ctx: Option<Store>, folderKey: string)
    ensures var cur := GetConfiguredLinks(ctx, folderKey);
            GetConfiguredLinks(UpdateConfiguredLinks(ctx, cur, folderKey), folderKey) == cur
  {
    if ctx.Some? {
      UpdateThenGet(ctx.value, GetConfiguredLinks(ctx, folderKey), folderKey);
    }
  }

  /** The default list is returned exactly when nothing usable is stored. */
  lemma DefaultFallback(st: Store, folderKey: string)
    ensures var v := Get(st, ResolveKey(folderKey));
            GetConfiguredLinks(Some(st), folderKey) == DefaultLinks
            <==> (!v.Array? || Normalize(v.entries) == [] || Normalize(v.entries) == DefaultLinks)
  {
  }

  /** An array whose entries all fail normalisation, such as an empty one,
      loads as the default list. */
  lemma NothingSurvives(st: Store, folderKey: string, es: seq<RawEntry>)
    requires Get(st, ResolveKey(folderKey)) == Array(es)
    requires forall j :: 0 <= j < |es| ==> CleanEntry(es[j]).None?
    ensures GetConfiguredLinks(Some(st), folderKey) == DefaultLinks
  {
    var n := Normalize(es);
    if n != [] {
      NormalizeMembers(es, n[0]);
    }
  }
}

=== FILE: manager_intents.dfy ===
/**
 The message handler of the manager view: each message from the view is an
 intent that, given the current list, either changes nothing, reports a
 problem, or produces a whole new list that is persisted and broadcast.

 URL syntax checking is the host's `new URL(...)` and is a parameter here.
 The answer to the modal delete prompt is a parameter too.
 */
module ManagerIntents {
  import opened Options
  import opened JsString
  import opened Links
  import opened Reorder
  import opened Effects

  /** A message from the manager view. Text fields hold
      `String(message.field || '')`, so a missing field is the empty string;
      an index that is not a number is `None`. */
  datatype Message =
    | Ready
    | Add(name: string, url: string)
    | Edit(index: Option<int>, name: string, url: string)
    | Delete(index: Option<int>)
    | Move(index: Option<int>, direction: string)
    | MoveTo(fromIndex: Option<int>, toIndex: Option<int>)
    | Unknown

  const RequiredMessage: string := "Label and URL are required."
  const InvalidUrlMessage: string := "URL is invalid."
  const DeleteCanceledMessage: string := "Delete canceled."

  /** The checks `add` and `edit` share on the trimmed label and URL: both
      must be non-empty, then the URL must parse. */
  function ValidateLink(isValidUrl: string -> bool, name: string, url: string): (r: Option<Notice>)
    ensures r.None? <==> Trim(name) != [] && Trim(url) != [] && isValidUrl(Trim(url))
    ensures r.Some? ==> r.value.PanelError?
    ensures (Trim(name) == [] || Trim(url) == []) ==> r == Some(PanelError(RequiredMessage))
    ensures Trim(name) != [] && Trim(url) != [] && !isValidUrl(Trim(url)) ==> r == Some(PanelError(InvalidUrlMessage))
  {
    var n := Trim(name);
    var u := Trim(url);
    if n == [] || u == [] then Some(PanelError(RequiredMessage))
    else if !isValidUrl(u) then Some(PanelError(InvalidUrlMessage))
    else None
  }

  /** `add`: the trimmed pair is appended, everything before it unchanged;
      a rejected pair only produces an error notice. */
  function AddIntent(isValidUrl: string -> bool, current: seq<Link>, name: string, url: string): (r: Effect)
    ensures r.write.Some? <==> ValidateLink(isValidUrl, name, url).None?
    ensures r.write.None? ==> r == Say(ValidateLink(isValidUrl, name, url).value)
    ensures r.write.Some? ==>
              var w := r.write.value;
              |w| == |current| + 1 && w[..|current|] == current
              && w[|current|] == Link(Trim(name), Trim(url))
  {
    match ValidateLink(isValidUrl, name, url)
    case Some(err) => Say(err)
    case None => Commit(current + [Link(Trim(name), Trim(url))])
  }

  /** `edit`: a bad index is ignored silently; a rejected pair produces an
      error notice; otherwise only position `i` changes, to the trimmed pair. */
  function EditIntent(isValidUrl: string -> bool, current: seq<Link>, index: Option<int>, name: string, url: string): (r: Effect)
    ensures !InRange(IndexOr(index), |current|) ==> r == NoOp
    ensures r.write.Some? <==> InRange(IndexOr(index), |current|) && ValidateLink(isValidUrl, name, url).None?
    ensures InRange(IndexOr(index), |current|) && r.write.None? ==> r == Say(ValidateLink(isValidUrl, name, url).value)
    ensures r.write.Some? ==>
              var w := r.write.value;
              |w| == |current| && w[IndexOr(index)] == Link(Trim(name), Trim(url))
              && forall j :: 0 <= j < |w| && j != IndexOr(index) ==> w[j] == current[j]
  {
    var i := IndexOr(index);
    if !InRange(i, |current|) then NoOp
    else
      match ValidateLink(isValidUrl, name, url)
      case Some(err) => Say(err)
      case None => Commit(current[i := Link(Trim(name), Trim(url))])
  }

  /** `currentLinks.filter((_, i) => i !== index)`: every element except the
      one at position `index`; an index outside the list removes nothing. */
  function WithoutIndex<T>(s: seq<T>, index: int): (r: seq<T>)
    ensures InRange(index, |s|) ==> r == s[..index] + s[index + 1..]
    ensures !InRange(index, |s|) ==> r == s
    decreases |s|
  {
    if s == [] then []
    else (if index == 0 then [] else [s[0]]) + WithoutIndex(s[1..], index - 1)
  }

  /** `delete`: a bad index is ignored silently; a declined prompt only shows
      an info notice; a confirmed delete removes exactly position `i`. */
  function DeleteIntent(current: seq<Link>, index: Option<int>, confirmed: bool): (r: Effect)
    ensures !InRange(IndexOr(index), |current|) ==> r == NoOp
    ensures r.write.Some? <==> InRange(IndexOr(index), |current|) && confirmed
    ensures InRange(IndexOr(index), |current|) && !confirmed ==> r == Say(PanelInfo(DeleteCanceledMessage))
    ensures r.write.Some? ==>
              var i := IndexOr(index);
              r.write.value == current[..i] + current[i + 1..] && r.notice == Some(LinksNotice(r.write.value))
  {
    var i := IndexOr(index);
    if !InRange(i, |current|) then NoOp
    else if !confirmed then Say(PanelInfo(DeleteCanceledMessage))
    else Commit(WithoutIndex(current, i))
  }

  /** The position a `move` direction asks for; an unknown direction asks for
      the element's own position. */
  function MoveTarget(index: int, direction: string, n: int): (t: int)
  {
    if direction == "up" then index - 1
    else if direction == "down" then index + 1
    else if direction == "top" then 0
    else if direction == "bottom" then n - 1
    else index
  }

  /** `move`: nothing happens unless both the index and its target are in
      the list and differ; then the element lands exactly on the target, the
      list stays a permutation, and the others keep their order. */
  function MoveIntent(current: seq<Link>, index: Option<int>, direction: string): (r: Effect)
    ensures r.notice.None? <==> r.write.None?
    ensures r.write.Some? <==>
              var i := IndexOr(index);
              var t := MoveTarget(i, direction, |current|);
              InRange(i, |current|) && InRange(t, |current|) && t != i
    ensures r.write.None? ==> r == NoOp
    ensures r.write.Some? ==>
              var i := IndexOr(index);
              var t := MoveTarget(i, direction, |current|);
              var w := r.write.value;
              |w| == |current| && multiset(w) == multiset(current)
              && w[t] == current[i] && RemoveAt(w, t) == RemoveAt(current, i)
              && r.notice == Some(LinksNotice(w))
  {
    var i := IndexOr(index);
    if !InRange(i, |current|) then NoOp
    else
      var t := MoveTarget(i, direction, |current|);
      if !InRange(t, |current|) || t == i then NoOp
      else Commit(MoveLink(current, i, t))
  }

  /** `moveTo` (drag and drop): `to` may equal the length, which lands the
      element last, exactly like `to == |current| - 1`. */
  function MoveToIntent(current: seq<Link>, fromIndex: Option<int>, toIndex: Option<int>): (r: Effect)
    ensures r.notice.None? <==> r.write.None?
    ensures r.write.Some? <==>
              var f := IndexOr(fromIndex);
              var t := IndexOr(toIndex);
              InRange(f, |current|) && 0 <= t <= |current| && f != t
    ensures r.write.None? ==> r == NoOp
    ensures r.write.Some? ==>
              var f := IndexOr(fromIndex);
              var t := if IndexOr(toIndex) == |current| then |current| - 1 else IndexOr(toIndex);
              var w := r.write.value;
              |w| == |current| && multiset(w) == multiset(current)
              && w[t] == current[f] && RemoveAt(w, t) == RemoveAt(current, f)
  {
    var f := IndexOr(fromIndex);
    var t := IndexOr(toIndex);
    if f < 0 || t < 0 || f >= |current| || t > |current| then NoOp
    else if f == t then NoOp
    else Commit(MoveLink(current, f, t))
  }

  /** The handler, given the list currently loaded for the active key:
      `ready` answers with that list, unknown messages do nothing. */
  function HandleMessage(isValidUrl: string -> bool, current: seq<Link>, msg: Message, confirmed: bool): (r: Effect)
    ensures msg.Ready? ==> r == Say(LinksNotice(current))
    ensures msg.Unknown? ==> r == NoOp
    ensures r.write.Some? ==> r.notice == Some(LinksNotice(r.write.value))
  {
    match msg
    case Ready => Say(LinksNotice(current))
    case Add(name, url) => AddIntent(isValidUrl, current, name, url)
    case Edit(index, name, url) => EditIntent(isValidUrl, current, index, name, url)
    case Delete(index) => DeleteIntent(current, index, confirmed)
    case Move(index, direction) => MoveIntent(current, index, direction)
    case MoveTo(fromIndex, toIndex) => MoveToIntent(current, fromIndex, toIndex)
    case Unknown => NoOp
  }

  /** Every list the handler writes is clean when the list it started from
      is: the stored data never gains an entry that a later load would drop. */
  lemma HandleMessageKeepsClean(isValidUrl: string -> bool, current: seq<Link>, msg: Message, confirmed: bool)
    requires AllClean(current)
    ensures var r := HandleMessage(isValidUrl, current, msg, confirmed);
            r.write.Some? ==> AllClean(r.write.value)
  {
    var r := HandleMessage(isValidUrl, current, msg, confirmed);
    if r.write.Some? {
      var w := r.write.value;
      match msg
      case Add(name, url) =>
        var a := AddIntent(isValidUrl, current, name, url);
        assert w == current + [w[|current|]] by {
          assert w == a.write.value;
        }
        AppendKeepsClean(current, w[|current|]);
      case Edit(index, name, url) =>
        var e := EditIntent(isValidUrl, current, index, name, url);
        assert w == current[IndexOr(index) := w[IndexOr(index)]] by {
          assert w == e.write.value;
        }
        ReplaceKeepsClean(current, IndexOr(index), w[IndexOr(index)]);
      case Delete(index) =>
        RemoveKeepsClean(current, IndexOr(index));
      case Move(index, direction) =>
        PermutationKeepsClean(current, w);
      case MoveTo(fromIndex, toIndex) =>
        PermutationKeepsClean(current, w);
    }
  }

  lemma PermutationKeepsClean(a: seq<Link>, b: seq<Link>)
    requires AllClean(a) && multiset(a) == multiset(b)
    ensures AllClean(b)
  {
    forall l | l in b
      ensures Clean(l)
    {
      assert l in multiset(b);
    }
  }

  /** One round of the handler against the store: load the active key's
      list, handle the message, persist the write if there is one. */
  function Receive(isValidUrl: string -> bool, st: Store, folderKey: string, msg: Message, confirmed: bool): (r: (Store, Effect))
    ensures r.1 == HandleMessage(isValidUrl, GetConfiguredLinks(Some(st), folderKey), msg, confirmed)
    ensures r.1.write.None? ==> r.0 == st
    ensures r.1.write.Some? ==> Get(r.0, ResolveKey(folderKey)) == Array(Encode(r.1.write.value))
    ensures r.1.write.Some? ==>
              GetConfiguredLinks(Some(r.0), folderKey)
              == if r.1.write.value == [] then DefaultLinks else r.1.write.value
    ensures forall k :: k != ResolveKey(folderKey) ==> Get(r.0, k) == Get(st, k)
  {
    var current := GetConfiguredLinks(Some(st), folderKey);
    var e := HandleMessage(isValidUrl, current, msg, confirmed);
    match e.write
    case None => (st, e)
    case Some(next) =>
      HandleMessageKeepsClean(isValidUrl, current, msg, confirmed);
      UpdateThenGet(st, next, folderKey);
      (UpdateConfiguredLinks(Some(st), next, folderKey).value, e)
  }

  // ---------------------------------------------------------------------
  // Properties relating the intents to each other and to the store

  /** `up` swaps an element with the one before it; on the first element
      it does nothing. */
  lemma MoveUp(current: seq<Link>, i: int)
    requires InRange(i, |current|)
    ensures i == 0 ==> MoveIntent(current, Some(i), "up") == NoOp
    ensures i > 0 ==>
              MoveIntent(current, Some(i), "up").write
              == Some(current[..i - 1] + [current[i], current[i - 1]] + current[i + 1..])
  {
    assert MoveTarget(i, "up", |current|) == i - 1;
    assert MoveIntent(current, Some(i), "up")
           == if i == 0 then NoOp else Commit(MoveLink(current, i, i - 1));
    if i > 0 {
      var j := i - 1;
      MoveLinkAdjacent(current, j);
      assert j + 1 == i && j + 2 == i + 1;
    }
  }

  /** `down` swaps an element with the one after it; on the last element it
      does nothing. */
  lemma MoveDown(current: seq<Link>, i: int)
    requires InRange(i, |current|)
    ensures i == |current| - 1 ==> MoveIntent(current, Some(i), "down") == NoOp
    ensures i < |current| - 1 ==>
              MoveIntent(current, Some(i), "down").write
              == Some(current[..i] + [current[i + 1], current[i]] + current[i + 2..])
  {
    if i < |current| - 1 {
      MoveLinkAdjacent(current, i);
    }
  }

  /** `top` puts an element first, the others keeping their order; on the
      first element it does nothing. */
  lemma MoveTop(current: seq<Link>, i: int)
    requires InRange(i, |current|)
    ensures i == 0 ==> MoveIntent(current, Some(i), "top") == NoOp
    ensures i > 0 ==>
              MoveIntent(current, Some(i), "top").write
              == Some([current[i]] + current[..i] + current[i + 1..])
  {
    assert MoveTarget(i, "top", |current|) == 0;
    assert MoveIntent(current, Some(i), "top")
           == if i == 0 then NoOp else Commit(MoveLink(current, i, 0));
    MoveLinkToFront(current, i);
  }

  /** `bottom` puts an element last, the others keeping their order; on the
      last element it does nothing. */
  lemma MoveBottom(current: seq<Link>, i: int)
    requires InRange(i, |current|)
    ensures i == |current| - 1 ==> MoveIntent(current, Some(i), "bottom") == NoOp
    ensures i < |current| - 1 ==>
              MoveIntent(current, Some(i), "bottom").write
              == Some(current[..i] + current[i + 1..] + [current[i]])
  {
    var n := |current|;
    assert MoveTarget(i, "bottom", n) == n - 1;
    assert MoveIntent(current, Some(i), "bottom")
           == if i == n - 1 then NoOp else Commit(MoveLink(current, i, n - 1));
    MoveLinkToBack(current, i);
  }

  /** Any other direction leaves the list alone. */
  lemma MoveUnknownDirection(current: seq<Link>, index: Option<int>, direction: string)
    requires direction != "up" && direction != "down" && direction != "top" && direction != "bottom"
    ensures MoveIntent(current, index, direction) == NoOp
  {
  }

  /** Dragging an element back to where it came from restores the list. */
  lemma MoveToReversible(current: seq<Link>, f: int, t: int)
    requires InRange(f, |current|) && InRange(t, |current|) && f != t
    ensures var r := MoveToIntent(current, Some(f), Some(t));
            r.write.Some? && MoveToIntent(r.write.value, Some(t), Some(f)).write == Some(current)
  {
    MoveLinkReversible(current, f, t);
  }

  /** Dropping past the end is the same as dropping on the last row; dragging
      the last row past the end passes the bounds check and writes the list
      back unchanged. */
  lemma MoveToPastEnd(current: seq<Link>, f: int)
    requires InRange(f, |current|)
    ensures var n := |current|;
            MoveToIntent(current, Some(f), Some(n)).write == Some(MoveLink(current, f, n - 1))
    ensures f == |current| - 1 ==> MoveToIntent(current, Some(f), Some(|current|)).write == Some(current)
  {
    MoveLinkPastEnd(current, f, |current|);
    if f == |current| - 1 {
      MoveLinkInPlace(current, f);
    }
  }

  /** When the active key holds a non-empty clean list, that list is what
      the handler acts on. */
  lemma ReceiveSeesStoredList(isValidUrl: string -> bool, st: Store, folderKey: string, ls: seq<Link>, msg: Message, confirmed: bool)
    requires AllClean(ls) && ls != [] && Get(st, ResolveKey(folderKey)) == Array(Encode(ls))
    ensures Receive(isValidUrl, st, folderKey, msg, confirmed).1 == HandleMessage(isValidUrl, ls, msg, confirmed)
  {
    NormalizeEncode(ls);
  }

  /** Deleting the only stored link leaves an empty array, which loads as
      the default list. */
  lemma DeleteLastLinkFallsBack(isValidUrl: string -> bool, st: Store, folderKey: string, l: Link)
    requires Clean(l) && Get(st, ResolveKey(folderKey)) == Array(Encode([l]))
    ensures var r := Receive(isValidUrl, st, folderKey, Delete(Some(0)), true);
            Get(r.0, ResolveKey(folderKey)) == Array([])
            && GetConfiguredLinks(Some(r.0), folderKey) == DefaultLinks
  {
    ReceiveSeesStoredList(isValidUrl, st, folderKey, [l], Delete(Some(0)), true);
    assert DeleteIntent([l], Some(0), true).write == Some([]);
  }

  /** When the active key holds an empty array, the handler acts on the
      default list. */
  lemma ReceiveSeesDefault(isValidUrl: string -> bool, st: Store, folderKey: string, msg: Message, confirmed: bool)
    requires Get(st, ResolveKey(folderKey)) == Array([])
    ensures Receive(isValidUrl, st, folderKey, msg, confirmed).1 == HandleMessage(isValidUrl, DefaultLinks, msg, confirmed)
  {
  }

  /** Adding a clean link to the default list appends it after the
      default entry. */
  lemma AddAfterDefault(isValidUrl: string -> bool, l: Link)
    requires Clean(l) && isValidUrl(l.url)
    ensures AddIntent(isValidUrl, DefaultLinks, l.name, l.url).write == Some([DefaultLinks[0], l])
  {
    CleanLinkTrims(l);
    assert AddIntent(isValidUrl, DefaultLinks, l.name, l.url) == Commit(DefaultLinks + [l]);
    assert DefaultLinks + [l] == [DefaultLinks[0], l];
  }

  /** Editing position 0 of a two-element list replaces just that element. */
  lemma EditFirstOfTwo(isValidUrl: string -> bool, a: Link, b: Link, l: Link)
    requires Clean(l) && isValidUrl(l.url)
    ensures EditIntent(isValidUrl, [a, b], Some(0), l.name, l.url).write == Some([l, b])
  {
    CleanLinkTrims(l);
    assert EditIntent(isValidUrl, [a, b], Some(0), l.name, l.url) == Commit([a, b][0 := l]);
    assert [a, b][0 := l] == [l, b];
  }

  /** Trimming leaves both fields of a clean link alone. */
  lemma CleanLinkTrims(l: Link)
    requires Clean(l)
    ensures Link(Trim(l.name), Trim(l.url)) == l
  {
  }

  /** Moving the first of two links down swaps them. */
  lemma MoveDownFirstOfTwo(a: Link, b: Link)
    ensures MoveIntent([a, b], Some(0), "down").write == Some([b, a])
  {
    var c := [a, b];
    MoveDown(c, 0);
    assert c[..0] + [c[1], c[0]] + c[2..] == [b, a];
  }

  /** One step of a run of the handler: from `st`, handling `msg` writes
      `after`, which is then what the active key holds. */
  predicate StepWrites(isValidUrl: string -> bool, st: Store, folderKey: string, msg: Message, confirmed: bool, after: seq<Link>) {
    var r := Receive(isValidUrl, st, folderKey, msg, confirmed);
    r.1.write == Some(after) && Get(r.0, ResolveKey(folderKey)) == Array(Encode(after))
  }

  /** A round of the handler that acts on `current` and writes `after`
      leaves `after`, encoded, under the active key. */
  lemma ReceiveStep(isValidUrl: string -> bool, st: Store, folderKey: string, msg: Message, confirmed: bool,
                    current: seq<Link>, after: seq<Link>)
    requires Receive(isValidUrl, st, folderKey, msg, confirmed).1 == HandleMessage(isValidUrl, current, msg, confirmed)
    requires HandleMessage(isValidUrl, current, msg, confirmed).write == Some(after)
    ensures StepWrites(isValidUrl, st, folderKey, msg, confirmed, after)
  {
  }

  /** A run of the handler from an empty stored array: add `docs`, move
      index 0 down, edit index 0 to `docs2`, delete index 0 (confirmed).
      Because the empty array loads as the default list, the added link
      lands after the default entry, and every later intent acts on
      whichever of the two comes first. */
  lemma ScenarioFromEmpty(isValidUrl: string -> bool, st0: Store, folderKey: string, docs: Link, docs2: Link)
    requires Clean(docs) && Clean(docs2) && isValidUrl(docs.url) && isValidUrl(docs2.url)
    requires Get(st0, ResolveKey(folderKey)) == Array([])
    ensures var example := DefaultLinks[0];
            var st1 := Receive(isValidUrl, st0, folderKey, Add(docs.name, docs.url), false).0;
            var st2 := Receive(isValidUrl, st1, folderKey, Move(Some(0), "down"), false).0;
            var st3 := Receive(isValidUrl, st2, folderKey, Edit(Some(0), docs2.name, docs2.url), false).0;
            && StepWrites(isValidUrl, st0, folderKey, Add(docs.name, docs.url), false, [example, docs])
            && StepWrites(isValidUrl, st1, folderKey, Move(Some(0), "down"), false, [docs, example])
            && StepWrites(isValidUrl, st2, folderKey, Edit(Some(0), docs2.name, docs2.url), false, [docs2, example])
            && StepWrites(isValidUrl, st3, folderKey, Delete(Some(0)), true, [example])
  {
    var example := DefaultLinks[0];
    DefaultLinksClean();
    assert Clean(example);
    var st1 := Receive(isValidUrl, st0, folderKey, Add(docs.name, docs.url), false).0;
    StepAdd(isValidUrl, st0, folderKey, docs);
    var st2 := Receive(isValidUrl, st1, folderKey, Move(Some(0), "down"), false).0;
    StepMoveDown(isValidUrl, st1, folderKey, example, docs);
    var st3 := Receive(isValidUrl, st2, folderKey, Edit(Some(0), docs2.name, docs2.url), false).0;
    StepEdit(isValidUrl, st2, folderKey, docs, example, docs2);
    StepDelete(isValidUrl, st3, folderKey, docs2, example);
  }

  lemma StepAdd(isValidUrl: string -> bool, st: Store, folderKey: string, docs: Link)
    requires Clean(docs) && isValidUrl(docs.url)
    requires Get(st, ResolveKey(folderKey)) == Array([])
    ensures StepWrites(isValidUrl, st, folderKey, Add(docs.name, docs.url), false, [DefaultLinks[0], docs])
  {
    var msg := Add(docs.name, docs.url);
    ReceiveSeesDefault(isValidUrl, st, folderKey, msg, false);
    AddAfterDefault(isValidUrl, docs);
    Dispatch(isValidUrl, DefaultLinks, false, None, docs.name, docs.url, [], None);
    ReceiveStep(isValidUrl, st, folderKey, msg, false, DefaultLinks, [DefaultLinks[0], docs]);
  }

  lemma StepMoveDown(isValidUrl: string -> bool, st: Store, folderKey: string, a: Link, b: Link)
    requires Clean(a) && Clean(b)
    requires Get(st, ResolveKey(folderKey)) == Array(Encode([a, b]))
    ensures StepWrites(isValidUrl, st, folderKey, Move(Some(0), "down"), false, [b, a])
  {
    var msg := Move(Some(0), "down");
    PairClean(a, b);
    ReceiveSeesStoredList(isValidUrl, st, folderKey, [a, b], msg, false);
    MoveDownFirstOfTwo(a, b);
    Dispatch(isValidUrl, [a, b], false, Some(0), [], [], "down", None);
    ReceiveStep(isValidUrl, st, folderKey, msg, false, [a, b], [b, a]);
  }

  lemma StepEdit(isValidUrl: string -> bool, st: Store, folderKey: string, a: Link, b: Link, l: Link)
    requires Clean(a) && Clean(b) && Clean(l) && isValidUrl(l.url)
    requires Get(st, ResolveKey(folderKey)) == Array(Encode([a, b]))
    ensures StepWrites(isValidUrl, st, folderKey, Edit(Some(0), l.name, l.url), false, [l, b])
  {
    var msg := Edit(Some(0), l.name, l.url);
    PairClean(a, b);
    ReceiveSeesStoredList(isValidUrl, st, folderKey, [a, b], msg, false);
    EditFirstOfTwo(isValidUrl, a, b, l);
    Dispatch(isValidUrl, [a, b], false, Some(0), l.name, l.url, [], None);
    ReceiveStep(isValidUrl, st, folderKey, msg, false, [a, b], [l, b]);
  }

  lemma StepDelete(isValidUrl: string -> bool, st: Store, folderKey: string, a: Link, b: Link)
    requires Clean(a) && Clean(b)
    requires Get(st, ResolveKey(folderKey)) == Array(Encode([a, b]))
    ensures StepWrites(isValidUrl, st, folderKey, Delete(Some(0)), true, [b])
  {
    var msg := Delete(Some(0));
    PairClean(a, b);
    ReceiveSeesStoredList(isValidUrl, st, folderKey, [a, b], msg, true);
    DeleteFirstOfTwo(a, b);
    Dispatch(isValidUrl, [a, b], true, Some(0), [], [], [], None);
    ReceiveStep(isValidUrl, st, folderKey, msg, true, [a, b], [b]);
  }

  /** Deleting the first of two links leaves the second. */
  lemma DeleteFirstOfTwo(a: Link, b: Link)
    ensures DeleteIntent([a, b], Some(0), true).write == Some([b])
  {
    var c := [a, b];
    assert c[..0] + c[1..] == [b];
  }

  /** Two clean links form a clean list. */
  lemma PairClean(a: Link, b: Link)
    requires Clean(a) && Clean(b)
    ensures AllClean([a, b])
  {
    forall l | l in [a, b]
      ensures Clean(l)
    {
      assert l == a || l == b;
    }
  }

  /** The handler passes each intent on to its own function. */
  lemma Dispatch(isValidUrl: string -> bool, current: seq<Link>, confirmed: bool,
                 index: Option<int>, name: string, url: string, direction: string, toIndex: Option<int>)
    ensures HandleMessage(isValidUrl, current, Add(name, url), confirmed) == AddIntent(isValidUrl, current, name, url)
    ensures HandleMessage(isValidUrl, current, Edit(index, name, url), confirmed) == EditIntent(isValidUrl, current, index, name, url)
    ensures HandleMessage(isValidUrl, current, Delete(index), confirmed) == DeleteIntent(current, index, confirmed)
    ensures HandleMessage(isValidUrl, current, Move(index, direction), confirmed) == MoveIntent(current, index, direction)
    ensures HandleMessage(isValidUrl, current, MoveTo(index, toIndex), confirmed) == MoveToIntent(current, index, toIndex)
  {
  }
}

=== FILE: options.dfy ===
/** Optional values: a JavaScript `undefined`/`null` or a value that is present. */
module Options {

  datatype Option<+T> = None | Some(value: T) {

    /** The value, or `default` when there is none. */
    function GetOr(default: T): T {
      match this
      case Some(v) => v
      case None => default
    }
  }
}

=== FILE: reorder.dfy ===
/**
 Reordering a list the way the extension does it: `moveLink` copies the list,
 cuts the moved element out with one `splice` and puts it back with another.
 */
module Reorder {

  /** The position `Array.prototype.splice` starts at for a `start` argument
      and an array of length `len`: negative values count from the end, and
      the result is clamped into `0..len`. */
  function SpliceStart(start: int, len: nat): (k: nat)
    ensures k <= len
    ensures 0 <= start <= len ==> k == start
    ensures start > len ==> k == len
  {
    if start < 0 then (if len + start < 0 then 0 else len + start)
    else if start > len then len
    else start
  }

  /** `s` without its element at position `i`. */
  function RemoveAt<T>(s: seq<T>, i: int): (r: seq<T>)
    requires 0 <= i < |s|
    ensures |r| == |s| - 1
    ensures forall j :: 0 <= j < i ==> r[j] == s[j]
    ensures forall j :: i <= j < |r| ==> r[j] == s[j + 1]
  {
    s[..i] + s[i + 1..]
  }

  /** `s` with `x` placed at position `i`, later elements shifted up. */
  function InsertAt<T>(s: seq<T>, i: int, x: T): (r: seq<T>)
    requires 0 <= i <= |s|
    ensures |r| == |s| + 1
    ensures r[i] == x
    ensures forall j :: 0 <= j < i ==> r[j] == s[j]
    ensures forall j :: i < j < |r| ==> r[j] == s[j - 1]
  {
    s[..i] + [x] + s[i..]
  }

  /** Where a move of the element at `from` to `to` lands: the second splice
      works on the list that is one shorter, so a target past its end is
      clamped to the last position. */
  function Landing(to: int, n: nat): (t: nat)
    requires n > 0
    ensures t < n
    ensures 0 <= to < n ==> t == to
    ensures to >= n ==> t == n - 1
  {
    SpliceStart(to, n - 1)
  }

  /** `moveLink`: the element at `from` is taken out and reinserted so that
      it lands at `Landing(to, |links|)`. The result is a permutation of the
      input, and removing the moved element from both lists leaves the same
      list: every other element keeps its relative order. */
  function MoveLink<T>(links: seq<T>, from: int, to: int): (r: seq<T>)
    requires 0 <= from < |links|
    ensures |r| == |links|
    ensures multiset(r) == multiset(links)
    ensures r[Landing(to, |links|)] == links[from]
    ensures RemoveAt(r, Landing(to, |links|)) == RemoveAt(links, from)
  {
    var rest := RemoveAt(links, from);
    var t := SpliceStart(to, |rest|);
    var x := links[from];
    assert links == links[..from] + [x] + links[from + 1..];
    assert multiset(links) == multiset(rest) + multiset{x};
    assert rest == rest[..t] + rest[t..];
    assert multiset(InsertAt(rest, t, x)) == multiset(rest) + multiset{x};
    InsertAt(rest, t, x)
  }

  // ---------------------------------------------------------------------
  // An index-by-index description of a move, and what follows from it

  /** For a move from `from` to `t`, the input position whose element ends
      up at position `k`: the elements between the two positions slide one
      step towards `from`, everything outside that range stays put. */
  function SourceIndex(from: int, t: int, k: int): int {
    if k == t then from
    else if from < t && from <= k < t then k + 1
    else if t < from && t < k <= from then k - 1
    else k
  }

  /** `MoveLink` agrees with the index-by-index description. */
  lemma MoveLinkPointwise<T>(links: seq<T>, from: int, to: int)
    requires 0 <= from < |links| && 0 <= to < |links|
    ensures forall k :: 0 <= k < |links| ==>
              0 <= SourceIndex(from, to, k) < |links|
              && MoveLink(links, from, to)[k] == links[SourceIndex(from, to, k)]
  {
    var r := MoveLink(links, from, to);
    var rest := RemoveAt(links, from);
    assert RemoveAt(r, to) == rest;
    forall k | 0 <= k < |links|
      ensures r[k] == links[SourceIndex(from, to, k)]
    {
      if k < to {
        assert r[k] == RemoveAt(r, to)[k];
      } else if k > to {
        assert r[k] == RemoveAt(r, to)[k - 1];
      }
    }
  }

  /** A target at or past the end behaves like the last position: the
      manager view may ask for `to == |links|`. */
  lemma MoveLinkPastEnd<T>(links: seq<T>, from: int, to: int)
    requires 0 <= from < |links| && to >= |links| - 1
    ensures MoveLink(links, from, to) == MoveLink(links, from, |links| - 1)
  {
  }

  lemma RemoveInsert<T>(s: seq<T>, i: int, x: T)
    requires 0 <= i <= |s|
    ensures RemoveAt(InsertAt(s, i, x), i) == s
  {
  }

  lemma InsertRemove<T>(s: seq<T>, i: int)
    requires 0 <= i < |s|
    ensures InsertAt(RemoveAt(s, i), i, s[i]) == s
  {
  }

  /** Moving an element back to where it came from restores the list. */
  lemma MoveLinkReversible<T>(links: seq<T>, from: int, to: int)
    requires 0 <= from < |links| && 0 <= to < |links|
    ensures MoveLink(MoveLink(links, from, to), to, from) == links
  {
    var m := MoveLink(links, from, to);
    var rest := RemoveAt(links, from);
    assert m == InsertAt(rest, to, links[from]);
    RemoveInsert(rest, to, links[from]);
    assert MoveLink(m, to, from) == InsertAt(rest, from, links[from]);
    InsertRemove(links, from);
  }

  /** A move onto the same position changes nothing. */
  lemma MoveLinkInPlace<T>(links: seq<T>, i: int)
    requires 0 <= i < |links|
    ensures MoveLink(links, i, i) == links
  {
    InsertRemove(links, i);
  }

  /** Moving to the front: the element first, then everything before it,
      then everything after it. */
  lemma MoveLinkToFront<T>(links: seq<T>, i: int)
    requires 0 <= i < |links|
    ensures MoveLink(links, i, 0) == [links[i]] + links[..i] + links[i + 1..]
  {
  }

  /** Moving to the back: everything but the element, then the element. */
  lemma MoveLinkToBack<T>(links: seq<T>, i: int)
    requires 0 <= i < |links|
    ensures MoveLink(links, i, |links| - 1) == links[..i] + links[i + 1..] + [links[i]]
  {
  }

  /** A move by one position is a swap of two neighbours. */
  lemma MoveLinkAdjacent<T>(links: seq<T>, i: int)
    requires 0 <= i < |links| - 1
    ensures MoveLink(links, i, i + 1) == links[..i] + [links[i + 1], links[i]] + links[i + 2..]
    ensures MoveLink(links, i + 1, i) == links[..i] + [links[i + 1], links[i]] + links[i + 2..]
  {
    var swapped := links[..i] + [links[i + 1], links[i]] + links[i + 2..];
    MoveLinkPointwise(links, i, i + 1);
    MoveLinkPointwise(links, i + 1, i);
    assert MoveLink(links, i, i + 1) == swapped;
    assert MoveLink(links, i + 1, i) == swapped;
  }
}

=== FILE: storage_keys.dfy ===
/**
 Which storage key a workspace folder's links live under, and the one-time
 copy of older data into a folder key that has never been written.
 */
module StorageKeys {
  import opened Options
  import opened Links

  /** A folder URI: its scheme, its file-system path (`fsPath`) and its
      string form (`toString()`). */
  datatype Uri = Uri(scheme: string, fsPath: string, text: string)

  /** A workspace folder, whose `uri` may be missing. */
  datatype Folder = Folder(uri: Option<Uri>)

  /** The host platform's path handling: whether it is Windows, Node's
      `path.normalize`, and `String.prototype.toLowerCase`. */
  datatype Platform = Platform(isWindows: bool, normalize: string -> string, lowerCase: string -> string)

  /** Both storage tiers of the extension context. */
  datatype Context = Context(globalState: Store, workspaceState: Store)

  /** The folder's URI, if there is a folder and it has one (`folder?.uri`). */
  function FolderUri(folder: Option<Folder>): Option<Uri> {
    if folder.Some? then folder.value.uri else None
  }

  /** The path a local folder is keyed by: normalised, and lower-cased on
      Windows where paths are case-insensitive. */
  function KeyPath(p: Platform, fsPath: string): string {
    if p.isWindows then p.lowerCase(p.normalize(fsPath)) else p.normalize(fsPath)
  }

  /** `getFolderKey`: the global key without a folder URI; for a local folder
      the global key, `:file:` and the key path; otherwise the global key,
      `:` and the URI's string form. */
  function GetFolderKey(p: Platform, folder: Option<Folder>): (key: string)
    ensures key == GlobalKey <==> FolderUri(folder).None?
    ensures |key| >= |GlobalKey| && key[..|GlobalKey|] == GlobalKey
    ensures key != []
    ensures FolderUri(folder).Some? && FolderUri(folder).value.scheme == "file" ==>
              |key| >= |GlobalKey| + 6 && key[|GlobalKey|..|GlobalKey| + 6] == ":file:"
  {
    match FolderUri(folder)
    case None => GlobalKey
    case Some(uri) =>
      if uri.scheme == "file" then GlobalKey + ":file:" + KeyPath(p, uri.fsPath)
      else GlobalKey + ":" + uri.text
  }

  /** The key format used before local paths were normalised: the global
      key, `:` and the URI's string form; none without a folder URI. */
  function LegacyUriKey(folder: Option<Folder>): (k: Option<string>)
    ensures k.Some? <==> FolderUri(folder).Some?
    ensures k.Some? ==> |k.value| == |GlobalKey| + 1 + |FolderUri(folder).value.text|
                        && k.value[..|GlobalKey| + 1] == GlobalKey + ":"
                        && k.value[|GlobalKey| + 1..] == FolderUri(folder).value.text
  {
    match FolderUri(folder)
    case None => None
    case Some(uri) => Some(GlobalKey + ":" + uri.text)
  }

  /** `legacyUriKey && state.get(legacyUriKey)`: a missing key is `null`,
      which is falsy. */
  function GetIfKey(st: Store, key: Option<string>): (v: Raw)
    ensures key.None? ==> v == Falsy
    ensures key.Some? ==> v == Get(st, key.value)
  {
    match key
    case None => Falsy
    case Some(k) => Get(st, k)
  }

  /** JavaScript's `a || b` on stored values. */
  function Or(a: Raw, b: Raw): (r: Raw)
    ensures Truthy(a) ==> r == a
    ensures !Truthy(a) ==> r == b
  {
    if Truthy(a) then a else b
  }

  /** The seeding chain exactly as it is written: a left-nested `||` of the
      four lookups. */
  function SeedSource(ctx: Context, folder: Option<Folder>, folderKey: string): (r: Raw)
    ensures r in SeedCandidates(ctx, folder, folderKey)
    ensures !Truthy(r) ==> r == Get(ctx.workspaceState, GlobalKey)
  {
    var legacy := LegacyUriKey(folder);
    Or(Or(Or(GetIfKey(ctx.globalState, legacy),
             Get(ctx.workspaceState, folderKey)),
          GetIfKey(ctx.workspaceState, legacy)),
       Get(ctx.workspaceState, GlobalKey))
  }

  /** The four places seeding looks in, in priority order. */
  function SeedCandidates(ctx: Context, folder: Option<Folder>, folderKey: string): (cs: seq<Raw>)
    ensures |cs| == 4
  {
    var legacy := LegacyUriKey(folder);
    [GetIfKey(ctx.globalState, legacy), Get(ctx.workspaceState, folderKey),
     GetIfKey(ctx.workspaceState, legacy), Get(ctx.workspaceState, GlobalKey)]
  }

  /** The first truthy value of a list, if any. */
  function FirstTruthy(cs: seq<Raw>): (r: Option<Raw>)
    ensures r.Some? ==> Truthy(r.value) && r.value in cs
    ensures r.None? <==> forall i :: 0 <= i < |cs| ==> !Truthy(cs[i])
    ensures r.Some? ==> exists i :: 0 <= i < |cs| && cs[i] == r.value
                                    && forall j :: 0 <= j < i ==> !Truthy(cs[j])
  {
    if cs == [] then None
    else if Truthy(cs[0]) then Some(cs[0])
    else
      var r := FirstTruthy(cs[1..]);
      if r.Some? then
        var i :| 0 <= i < |cs[1..]| && cs[1..][i] == r.value
                 && forall j :: 0 <= j < i ==> !Truthy(cs[1..][j]);
        assert cs[i + 1] == r.value;
        r
      else r
  }

  /** The `||` chain picks the first truthy candidate; when there is none
      it yields the last, falsy, lookup. */
  lemma SeedSourceIsFirstTruthy(ctx: Context, folder: Option<Folder>, folderKey: string)
    ensures var cs := SeedCandidates(ctx, folder, folderKey);
            SeedSource(ctx, folder, folderKey) == FirstTruthy(cs).GetOr(cs[3])
  {
    var cs := SeedCandidates(ctx, folder, folderKey);
    var c1 := cs[1..];
    var c2 := c1[1..];
    var c3 := c2[1..];
    assert c3 == [cs[3]] && c3[1..] == [];
    assert FirstTruthy(c3) == if Truthy(cs[3]) then Some(cs[3]) else None;
    assert FirstTruthy(c2) == if Truthy(cs[2]) then Some(cs[2]) else FirstTruthy(c3);
    assert FirstTruthy(c1) == if Truthy(cs[1]) then Some(cs[1]) else FirstTruthy(c2);
  }

  /** Whether seeding applies to a key at all: it must be a folder key whose
      global-state slot does not hold an array yet. */
  predicate SeedingApplies(ctx: Context, folderKey: string) {
    folderKey != [] && folderKey != GlobalKey && !Get(ctx.globalState, folderKey).Array?
  }

  /** `ensureFolderLinksSeeded`: when seeding applies and the chain yields an
      array, that array is copied into the folder key of the global state.
      Nothing else is ever written. */
  function EnsureFolderLinksSeeded(ctx: Option<Context>, folder: Option<Folder>, folderKey: string): (r: Option<Context>)
    ensures r.Some? <==> ctx.Some?
    ensures r.Some? ==> r.value.workspaceState == ctx.value.workspaceState
    ensures r.Some? ==> forall k :: k != folderKey ==> Get(r.value.globalState, k) == Get(ctx.value.globalState, k)
    ensures r.Some? && !SeedingApplies(ctx.value, folderKey) ==> r == ctx
    ensures r.Some? && SeedingApplies(ctx.value, folderKey) ==>
              match FirstTruthy(SeedCandidates(ctx.value, folder, folderKey))
              case Some(Array(es)) => Get(r.value.globalState, folderKey) == Array(es)
              case _ => r == ctx
  {
    match ctx
    case None => None
    case Some(c) =>
      if folderKey == [] || folderKey == GlobalKey then ctx
      else if Get(c.globalState, folderKey).Array? then ctx
      else
        SeedSourceIsFirstTruthy(c, folder, folderKey);
        var base := SeedSource(c, folder, folderKey);
        if base.Array? then Some(c.(globalState := c.globalState[folderKey := base]))
        else ctx
  }

  // ---------------------------------------------------------------------
  // Properties of keys and of seeding

  /** Two local folders share a key exactly when their key paths agree. */
  lemma FileKeysInjective(p: Platform, a: Folder, b: Folder)
    requires a.uri.Some? && a.uri.value.scheme == "file"
    requires b.uri.Some? && b.uri.value.scheme == "file"
    ensures GetFolderKey(p, Some(a)) == GetFolderKey(p, Some(b))
            <==> KeyPath(p, a.uri.value.fsPath) == KeyPath(p, b.uri.value.fsPath)
  {
    var pre := GlobalKey + ":file:";
    var ka := GetFolderKey(p, Some(a));
    var kb := GetFolderKey(p, Some(b));
    if ka == kb {
      assert ka[|pre|..] == KeyPath(p, a.uri.value.fsPath);
      assert kb[|pre|..] == KeyPath(p, b.uri.value.fsPath);
    }
  }

  /** Two folders that are not local share a key exactly when their URIs
      have the same string form. */
  lemma NonFileKeysInjective(p: Platform, a: Folder, b: Folder)
    requires a.uri.Some? && a.uri.value.scheme != "file"
    requires b.uri.Some? && b.uri.value.scheme != "file"
    ensures GetFolderKey(p, Some(a)) == GetFolderKey(p, Some(b)) <==> a.uri.value.text == b.uri.value.text
  {
    var pre := GlobalKey + ":";
    var ka := GetFolderKey(p, Some(a));
    var kb := GetFolderKey(p, Some(b));
    if ka == kb {
      assert ka[|pre|..] == a.uri.value.text;
      assert kb[|pre|..] == b.uri.value.text;
    }
  }

  /** A local folder and a folder that is not local never share a key,
      provided the latter's URI string starts with its scheme and `:` and
      the scheme holds no `:`, as every URI's string form does. */
  lemma FileAndRemoteKeysDiffer(p: Platform, a: Folder, b: Folder)
    requires a.uri.Some? && a.uri.value.scheme == "file"
    requires b.uri.Some? && b.uri.value.scheme != "file" && ':' !in b.uri.value.scheme
    requires var u := b.uri.value;
             |u.text| > |u.scheme| && u.text[..|u.scheme|] == u.scheme && u.text[|u.scheme|] == ':'
    ensures GetFolderKey(p, Some(a)) != GetFolderKey(p, Some(b))
  {
    var ka := GetFolderKey(p, Some(a));
    var kb := GetFolderKey(p, Some(b));
    var sc := b.uri.value.scheme;
    var sa := "file:" + KeyPath(p, a.uri.value.fsPath);
    var sb := b.uri.value.text;
    assert ka[|GlobalKey| + 1..] == sa;
    assert kb[|GlobalKey| + 1..] == sb;
    if |sc| < 4 {
      assert sb[|sc|] == ':' && sa[|sc|] != ':';
    } else if |sc| > 4 {
      assert sc[4] in sc;
      assert sb[4] != ':' && sa[4] == ':';
    } else {
      assert sb[..4] == sc && sa[..4] == "file";
    }
  }

  /** Two folders with URIs share a legacy key exactly when their URIs have
      the same string form. */
  lemma LegacyKeysInjective(a: Folder, b: Folder)
    requires a.uri.Some? && b.uri.Some?
    ensures LegacyUriKey(Some(a)) == LegacyUriKey(Some(b)) <==> a.uri.value.text == b.uri.value.text
  {
  }

  /** For a folder that is not local the key and the legacy key coincide. */
  lemma NonFileKeyIsLegacyKey(p: Platform, folder: Folder)
    requires folder.uri.Some? && folder.uri.value.scheme != "file"
    ensures LegacyUriKey(Some(folder)) == Some(GetFolderKey(p, Some(folder)))
  {
  }

  /** Seeding is idempotent: a second run finds nothing more to do. */
  lemma SeedingIdempotent(ctx: Option<Context>, folder: Option<Folder>, folderKey: string)
    ensures var once := EnsureFolderLinksSeeded(ctx, folder, folderKey);
            EnsureFolderLinksSeeded(once, folder, folderKey) == once
  {
  }

  /** Legacy data in the global state under the old key format wins over
      every other candidate. */
  lemma SeedPrefersGlobalLegacy(ctx: Context, folder: Option<Folder>, folderKey: string, es: seq<RawEntry>)
    requires SeedingApplies(ctx, folderKey)
    requires LegacyUriKey(folder).Some? && Get(ctx.globalState, LegacyUriKey(folder).value) == Array(es)
    ensures EnsureFolderLinksSeeded(Some(ctx), folder, folderKey).value.globalState[folderKey] == Array(es)
  {
  }

  /** Once an array was seeded, the folder key reads back as that array's
      links, with the usual fallback to the default list. */
  lemma SeededLinksLoad(ctx: Context, folder: Option<Folder>, folderKey: string, es: seq<RawEntry>)
    requires SeedingApplies(ctx, folderKey)
    requires FirstTruthy(SeedCandidates(ctx, folder, folderKey)) == Some(Array(es))
    ensures var seeded := EnsureFolderLinksSeeded(Some(ctx), folder, folderKey).value;
            GetConfiguredLinks(Some(seeded.globalState), folderKey)
            == if Normalize(es) == [] then DefaultLinks else Normalize(es)
  {
  }

  /** For a folder that is not local, a truthy non-array value already in
      its global-state slot ends the chain at its first step, so nothing is
      copied even when a later candidate holds an array. */
  lemma NonFileStaleValueBlocksSeeding(p: Platform, ctx: Context, folder: Folder)
    requires folder.uri.Some? && folder.uri.value.scheme != "file"
    requires Get(ctx.globalState, GetFolderKey(p, Some(folder))) == NonArray
    ensures EnsureFolderLinksSeeded(Some(ctx), Some(folder), GetFolderKey(p, Some(folder))) == Some(ctx)
  {
  }
}

=== FILE: tree_commands.dfy ===
/**
 The sidebar commands: add, edit, delete and the four moves, each acting on
 the list loaded for the active key and on the position of the tree item it
 was invoked on.

 Input boxes and the modal prompt are host calls; their answers are
 parameters. An input box answer is `None` when the box was dismissed. The
 URL box validates its input before it can be accepted, so the commands
 themselves do not check URL syntax.
 */
module TreeCommands {
  import opened Options
  import opened JsString
  import opened Links
  import opened Reorder
  import opened Effects
  import ManagerIntents

  /** The edit command's pop-up for a missing link (line 382): 找不到要編輯的連結。 */
  const EditNotFoundMessage: string := "\U{627E}\U{4E0D}\U{5230}\U{8981}\U{7DE8}\U{8F2F}\U{7684}\U{9023}\U{7D50}\U{3002}"
  /** The delete command's pop-up for a missing link (line 418): 無法刪除此專案工具箱連結。 */
  const DeleteFailedMessage: string := "\U{7121}\U{6CD5}\U{522A}\U{9664}\U{6B64}\U{5C08}\U{6848}\U{5DE5}\U{5177}\U{7BB1}\U{9023}\U{7D50}\U{3002}"

  /** `!answer` is false: the box was accepted with a non-empty string.
      The test is on the raw answer, before any trimming. */
  predicate Answered(answer: Option<string>) {
    answer.Some? && answer.value != []
  }

  /** The add command as written: both answers must be non-empty as typed,
      then the trimmed pair is appended. */
  function AddLinkCommand(current: seq<Link>, name: Option<string>, url: Option<string>): (r: Effect)
    ensures r.write.Some? <==> Answered(name) && Answered(url)
    ensures r.write.None? ==> r == NoOp
    ensures r.write.Some? ==>
              var w := r.write.value;
              |w| == |current| + 1 && w[..|current|] == current
              && w[|current|] == Link(Trim(name.value), Trim(url.value))
              && r.notice == Some(LinksNotice(w))
  {
    if !Answered(name) then NoOp
    else if !Answered(url) then NoOp
    else Commit(current + [Link(Trim(name.value), Trim(url.value))])
  }

  /** The add command with the emptiness test made after trimming, as the
      manager view makes it: a write happens exactly for answers that are
      not blank, and it never adds a link a later load would drop. */
  function AddLinkCommandTrimmed(current: seq<Link>, name: Option<string>, url: Option<string>): (r: Effect)
    ensures r.write.Some? <==> name.Some? && url.Some? && Trim(name.value) != [] && Trim(url.value) != []
    ensures r.write.None? ==> r == NoOp
    ensures r.write.Some? ==>
              var w := r.write.value;
              |w| == |current| + 1 && w[..|current|] == current
              && w[|current|] == Link(Trim(name.value), Trim(url.value))
              && Clean(w[|current|])
    ensures r.write.Some? ==> r.notice == Some(LinksNotice(r.write.value))
  {
    if name.None? || Trim(name.value) == [] then NoOp
    else if url.None? || Trim(url.value) == [] then NoOp
    else Commit(current + [Link(Trim(name.value), Trim(url.value))])
  }

  /** The edit command as written: an index outside the list reports an
      error; then both answers must be non-empty as typed, and only the
      edited position changes, to the trimmed pair. */
  function EditLinkCommand(current: seq<Link>, index: Option<int>, name: Option<string>, url: Option<string>): (r: Effect)
    ensures !InRange(IndexOr(index), |current|) ==> r == Say(HostError(EditNotFoundMessage))
    ensures r.write.Some? <==> InRange(IndexOr(index), |current|) && Answered(name) && Answered(url)
    ensures InRange(IndexOr(index), |current|) && r.write.None? ==> r == NoOp
    ensures r.write.Some? ==>
              var w := r.write.value;
              |w| == |current| && w[IndexOr(index)] == Link(Trim(name.value), Trim(url.value))
              && forall j :: 0 <= j < |w| && j != IndexOr(index) ==> w[j] == current[j]
    ensures r.write.Some? ==> r.notice == Some(LinksNotice(r.write.value))
  {
    var i := IndexOr(index);
    if !InRange(i, |current|) then Say(HostError(EditNotFoundMessage))
    else if !Answered(name) then NoOp
    else if !Answered(url) then NoOp
    else Commit(current[i := Link(Trim(name.value), Trim(url.value))])
  }

  /** The edit command with the emptiness test made after trimming. */
  function EditLinkCommandTrimmed(current: seq<Link>, index: Option<int>, name: Option<string>, url: Option<string>): (r: Effect)
    ensures !InRange(IndexOr(index), |current|) ==> r == Say(HostError(EditNotFoundMessage))
    ensures r.write.Some? <==> InRange(IndexOr(index), |current|) && name.Some? && url.Some?
                               && Trim(name.value) != [] && Trim(url.value) != []
    ensures InRange(IndexOr(index), |current|) && r.write.None? ==> r == NoOp
    ensures r.write.Some? ==>
              var w := r.write.value;
              |w| == |current| && w[IndexOr(index)] == Link(Trim(name.value), Trim(url.value))
              && Clean(w[IndexOr(index)])
              && forall j :: 0 <= j < |w| && j != IndexOr(index) ==> w[j] == current[j]
    ensures r.write.Some? ==> r.notice == Some(LinksNotice(r.write.value))
  {
    var i := IndexOr(index);
    if !InRange(i, |current|) then Say(HostError(EditNotFoundMessage))
    else if name.None? || Trim(name.value) == [] then NoOp
    else if url.None? || Trim(url.value) == [] then NoOp
    else Commit(current[i := Link(Trim(name.value), Trim(url.value))])
  }

  /** The delete command: an index outside the list reports an error, a
      declined prompt does nothing at all, a confirmed one removes exactly
      that position. */
  function DeleteLinkCommand(current: seq<Link>, index: Option<int>, confirmed: bool): (r: Effect)
    ensures !InRange(IndexOr(index), |current|) ==> r == Say(HostError(DeleteFailedMessage))
    ensures r.write.Some? <==> InRange(IndexOr(index), |current|) && confirmed
    ensures InRange(IndexOr(index), |current|) && !confirmed ==> r == NoOp
    ensures r.write.Some? ==>
              var i := IndexOr(index);
              |r.write.value| == |current| - 1 && r.write.value == current[..i] + current[i + 1..]
    ensures r.write.Some? ==> r.notice == Some(LinksNotice(r.write.value))
  {
    var i := IndexOr(index);
    if i < 0 || i >= |current| then Say(HostError(DeleteFailedMessage))
    else if !confirmed then NoOp
    else Commit(ManagerIntents.WithoutIndex(current, i))
  }

  /** Move up: not for the first item. */
  function MoveLinkUp(current: seq<Link>, index: Option<int>): (r: Effect)
    ensures !(0 < IndexOr(index) < |current|) ==> r == NoOp
    ensures 0 < IndexOr(index) < |current| ==>
              var i := IndexOr(index);
              r == Commit(current[..i - 1] + [current[i], current[i - 1]] + current[i + 1..])
  {
    var i := IndexOr(index);
    if i <= 0 || i >= |current| then NoOp
    else
      MoveLinkAdjacent(current, i - 1);
      assert current[i - 1 + 2..] == current[i + 1..];
      Commit(MoveLink(current, i, i - 1))
  }

  /** Move down: not for the last item. */
  function MoveLinkDown(current: seq<Link>, index: Option<int>): (r: Effect)
    ensures !(0 <= IndexOr(index) < |current| - 1) ==> r == NoOp
    ensures 0 <= IndexOr(index) < |current| - 1 ==>
              var i := IndexOr(index);
              r == Commit(current[..i] + [current[i + 1], current[i]] + current[i + 2..])
  {
    var i := IndexOr(index);
    if i < 0 || i >= |current| - 1 then NoOp
    else
      MoveLinkAdjacent(current, i);
      Commit(MoveLink(current, i, i + 1))
  }

  /** Move to top: not for the first item. */
  function MoveLinkToTop(current: seq<Link>, index: Option<int>): (r: Effect)
    ensures !(0 < IndexOr(index) < |current|) ==> r == NoOp
    ensures 0 < IndexOr(index) < |current| ==>
              var i := IndexOr(index);
              r == Commit([current[i]] + current[..i] + current[i + 1..])
  {
    var i := IndexOr(index);
    if i <= 0 || i >= |current| then NoOp
    else
      var m := MoveLink(current, i, 0);
      MoveLinkToFront(current, i);
      Commit(m)
  }

  /** Move to bottom: not for the last item. */
  function MoveLinkToBottom(current: seq<Link>, index: Option<int>): (r: Effect)
    ensures !(0 <= IndexOr(index) < |current| - 1) ==> r == NoOp
    ensures 0 <= IndexOr(index) < |current| - 1 ==>
              var i := IndexOr(index);
              r == Commit(current[..i] + current[i + 1..] + [current[i]])
  {
    var i := IndexOr(index);
    if i < 0 || i >= |current| - 1 then NoOp
    else
      MoveLinkToBack(current, i);
      Commit(MoveLink(current, i, |current| - 1))
  }

  // ---------------------------------------------------------------------
  // The sidebar against the manager view

  /** Each sidebar move does exactly what the manager view's `move` message
      with the matching direction does, for every list and every index. */
  lemma TreeMoveUpMatchesManager(current: seq<Link>, index: Option<int>)
    ensures MoveLinkUp(current, index) == ManagerIntents.MoveIntent(current, index, "up")
  {
  }

  lemma TreeMoveDownMatchesManager(current: seq<Link>, index: Option<int>)
    ensures MoveLinkDown(current, index) == ManagerIntents.MoveIntent(current, index, "down")
  {
  }

  lemma TreeMoveToTopMatchesManager(current: seq<Link>, index: Option<int>)
    ensures MoveLinkToTop(current, index) == ManagerIntents.MoveIntent(current, index, "top")
  {
  }

  lemma TreeMoveToBottomMatchesManager(current: seq<Link>, index: Option<int>)
    ensures MoveLinkToBottom(current, index) == ManagerIntents.MoveIntent(current, index, "bottom")
  {
  }

  /** The two delete paths write the same list when confirmed; they differ
      only in what the user is told otherwise. */
  lemma TreeDeleteMatchesManager(current: seq<Link>, index: Option<int>, confirmed: bool)
    ensures DeleteLinkCommand(current, index, confirmed).write
            == ManagerIntents.DeleteIntent(current, index, confirmed).write
  {
  }

  /** With the emptiness test after trimming, the sidebar's add writes what
      the manager view's add writes whenever the URL passes the check. */
  lemma TrimmedAddMatchesManager(isValidUrl: string -> bool, current: seq<Link>, name: string, url: string)
    requires isValidUrl(Trim(url))
    ensures AddLinkCommandTrimmed(current, Some(name), Some(url)).write
            == ManagerIntents.AddIntent(isValidUrl, current, name, url).write
  {
  }

  /** The corrected sidebar commands, like the manager view, never write a
      link that a later load would drop. */
  lemma TreeCommandsKeepClean(current: seq<Link>, index: Option<int>, name: Option<string>, url: Option<string>, confirmed: bool)
    requires AllClean(current)
    ensures var r := AddLinkCommandTrimmed(current, name, url); r.write.Some? ==> AllClean(r.write.value)
    ensures var r := EditLinkCommandTrimmed(current, index, name, url); r.write.Some? ==> AllClean(r.write.value)
    ensures var r := DeleteLinkCommand(current, index, confirmed); r.write.Some? ==> AllClean(r.write.value)
  {
    var a := AddLinkCommandTrimmed(current, name, url);
    if a.write.Some? {
      var w := a.write.value;
      assert w == current + [w[|current|]];
      AppendKeepsClean(current, w[|current|]);
    }
    var e := EditLinkCommandTrimmed(current, index, name, url);
    if e.write.Some? {
      var w := e.write.value;
      var i := IndexOr(index);
      assert w == current[i := w[i]];
      ReplaceKeepsClean(current, i, w[i]);
    }
    var d := DeleteLinkCommand(current, index, confirmed);
    if d.write.Some? {
      RemoveKeepsClean(current, IndexOr(index));
    }
  }

  // ---------------------------------------------------------------------
  // The blank-label finding

  /** The add command as written accepts a label made only of white space:
      it appends a link whose label is empty, and the next load silently
      drops that link, so a list is written but nothing is added. */
  lemma BlankLabelAddIsLost(st: Store, folderKey: string, current: seq<Link>, name: string, url: string)
    requires AllClean(current)
    requires name != [] && AllWhitespace(name) && Trim(url) != []
    ensures var r := AddLinkCommand(current, Some(name), Some(url));
            && r.write == Some(current + [Link([], Trim(url))])
            && !AllClean(r.write.value)
            && GetConfiguredLinks(UpdateConfiguredLinks(Some(st), r.write.value, folderKey), folderKey)
               == if current == [] then DefaultLinks else current
  {
    var w := current + [Link([], Trim(url))];
    assert AddLinkCommand(current, Some(name), Some(url)).write == Some(w) by {
      TrimEmpty(name);
    }
    assert !AllClean(w) by {
      assert !Clean(w[|current|]);
    }
    assert Normalize(Encode(w)) == current by {
      BlankEntryLost(current, Trim(url));
    }
    StoreThenLoad(st, w, folderKey);
  }

  /** The corrected add command refuses a label made only of white space. */
  lemma BlankLabelAddRefused(current: seq<Link>, name: string, url: Option<string>)
    requires AllWhitespace(name)
    ensures AddLinkCommandTrimmed(current, Some(name), url) == NoOp
  {
    TrimEmpty(name);
  }

  /** The edit command as written likewise accepts a label made only of
      white space, and the next load drops the edited link altogether. */
  lemma BlankLabelEditIsLost(st: Store, folderKey: string, current: seq<Link>, index: Option<int>, name: string, url: string)
    requires AllClean(current) && InRange(IndexOr(index), |current|)
    requires name != [] && AllWhitespace(name) && Trim(url) != []
    ensures var i := IndexOr(index);
            var r := EditLinkCommand(current, index, Some(name), Some(url));
            && r.write == Some(current[i := Link([], Trim(url))])
            && !AllClean(r.write.value)
            && GetConfiguredLinks(UpdateConfiguredLinks(Some(st), r.write.value, folderKey), folderKey)
               == if |current| == 1 then DefaultLinks else current[..i] + current[i + 1..]
  {
    var i := IndexOr(index);
    var w := current[i := Link([], Trim(url))];
    assert EditLinkCommand(current, index, Some(name), Some(url)).write == Some(w) by {
      TrimEmpty(name);
    }
    assert !AllClean(w) by {
      assert !Clean(w[i]);
    }
    BlankEditReload(st, folderKey, current, i, Trim(url));
  }

  /** The corrected edit command refuses a label made only of white space. */
  lemma BlankLabelEditRefused(current: seq<Link>, index: Option<int>, name: string, url: Option<string>)
    requires InRange(IndexOr(index), |current|) && AllWhitespace(name)
    ensures EditLinkCommandTrimmed(current, index, Some(name), url) == NoOp
  {
    TrimEmpty(name);
  }

  /** Storing a clean list with one position overwritten by a link whose
      label is empty reads back as the list without that position. */
  lemma BlankEditReload(st: Store, folderKey: string, current: seq<Link>, i: int, url: string)
    requires AllClean(current) && 0 <= i < |current|
    ensures GetConfiguredLinks(UpdateConfiguredLinks(Some(st), current[i := Link([], url)], folderKey), folderKey)
            == if |current| == 1 then DefaultLinks else current[..i] + current[i + 1..]
  {
    var w := current[i := Link([], url)];
    var kept := current[..i] + current[i + 1..];
    assert Normalize(Encode(w)) == kept by {
      BlankEntryDropped(current, i, url);
    }
    assert kept == [] <==> |current| == 1 by {
      assert |kept| == |current| - 1;
    }
    StoreThenLoad(st, w, folderKey);
  }

  /** Appending a link with an empty label to a clean list leaves the
      normalised form of its stored encoding unchanged. */
  lemma BlankEntryLost(ls: seq<Link>, url: string)
    requires AllClean(ls)
    ensures Normalize(Encode(ls + [Link([], url)])) == ls
  {
    var tail := [Record(Str([]), Str(url))];
    assert Encode(ls + [Link([], url)]) == Encode(ls) + tail;
    NormalizeEncode(ls);
    BlankRecordDropped(url);
    NormalizeAppend(Encode(ls), tail);
  }

  /** Overwriting one link of a clean list with a link whose label is empty
      makes normalisation drop that position. */
  lemma BlankEntryDropped(ls: seq<Link>, i: int, url: string)
    requires AllClean(ls) && 0 <= i < |ls|
    ensures Normalize(Encode(ls[i := Link([], url)])) == ls[..i] + ls[i + 1..]
  {
    var pre := ls[..i];
    var post := ls[i + 1..];
    var mid := [Record(Str([]), Str(url))];
    assert ls[i := Link([], url)] == pre + [Link([], url)] + post;
    assert Encode(ls[i := Link([], url)]) == Encode(pre) + mid + Encode(post);
    assert AllClean(pre) by {
      assert forall l :: l in pre ==> l in ls;
    }
    assert AllClean(post) by {
      assert forall l :: l in post ==> l in ls;
    }
    NormalizeEncode(pre);
    NormalizeEncode(post);
    BlankRecordDropped(url);
    NormalizeAppend(Encode(pre), mid);
    NormalizeAppend(Encode(pre) + mid, Encode(post));
  }

  lemma BlankRecordDropped(url: string)
    ensures Normalize([Record(Str([]), Str(url))]) == []
  {
    var e := [Record(Str([]), Str(url))];
    assert CleanEntry(e[0]).None?;
    assert e[1..] == [];
  }
}
